=== FILE: README.md ===
# Portfolio site: navigation, music player and typewriter, modelled in Dafny

This project models the stateful logic of three components of a personal
portfolio website and proves properties of that model.

- **Project gallery** (`Portfolio.tsx`). The project gallery has five parts:
  - the `rotate` helper;
  - the image carousel inside a project's detail view;
  - the selected-project state driven by the arrow keys, Escape, the previous/next buttons, the thumbnails and the dot strip;
  - the window of up to seven navigation dots with their opacities;
  - the tripled "infinite" thumbnail strip with its scroll wrap, drag and click mapping.
- **Music player** (`Music.tsx`). The music player has these parts:
  - the `m:ss` time label;
  - the bucketing of the analyser's frequency bins into 32 bar levels;
  - the throttled sampling callback;
  - the playback controller. The controller covers play/pause, track switching with its 50 ms deferred build, the `ended`, `timeupdate` and `loadedmetadata` handlers, click and drag seeking, and unmount;
  - the per-card view of played bars and bar heights.
- **Typewriter reveal** (`typewriter-reveal.tsx`). This is the interval that reveals one more UTF-16 code unit of the text per tick and then completes. JavaScript's `length` and `slice` count code units, so the model's text is its UTF-16 encoding (`Typewriter.Utf16`), and a character outside the Basic Multilingual Plane takes two ticks.

Browser objects become abstract state. The `Audio` element is a numbered handle, the audio-graph source, analyser and context are presence flags, and the scheduled animation-frame callback is an `Option`. Pending `setTimeout` builds form a queue of track ids. Each timer firing or media event is its own transition, so interleavings can be stated (`PlayerProperties.Event`, `PlayerProperties.Step`).

Modules, one per file:

- `Wrappers`: `Option`.
- `JsArith`: JavaScript's truncating `%` on integers and on numbers, and how it relates to Dafny's Euclidean `%`.
- `Rotation`, `ImageCarousel`, `ProjectSelection`, `DotWindow`, `ThumbnailStrip`: the gallery.
- `ClockFormat`, `Spectrum`, `Sampling`, `Playback`, `PlayerProperties`, `Scrubber`: the music section.
- `Typewriter`: the typewriter reveal.

At the halfway point `i / 32 <= progress` fills bars 0 to 16, which is 17 bars (`Scrubber.HalfwayFillsSeventeen`).

## Model

| member | source | states |
|---|---|---|
| JsArith.Rem | client/src/components/sections/Portfolio.tsx:274 | JavaScript `%`: the result has the sign of the dividend and is smaller than the divisor in magnitude. It agrees with the mathematical modulus for non-negative dividends. |
| JsArith.RealRem | client/src/components/sections/Music.tsx:201 | For non-negative seconds, `seconds % 60` lies in [0, 60) and equals seconds minus 60 times the floor of seconds/60. |
| JsArith.NormalizedRem | client/src/components/sections/Portfolio.tsx:274 | `((n % l) + l) % l` is the mathematical n mod l for every integer n, negative ones included. |
| Rotation.Offset | client/src/components/sections/Portfolio.tsx:273-274 | The rotation offset lies in [0, l) and equals n mod l. |
| Rotation.Rotate | client/src/components/sections/Portfolio.tsx:272-276 | The rotated array keeps the length. Element k is `arr[(k + n) mod l]` for every n, negative ones included. An empty array stays empty. |
| Rotation.RotateCompose | client/src/components/sections/Portfolio.tsx:272-276 | Rotating by m and then by n is rotating by m + n. |
| Rotation.RotateByLength | client/src/components/sections/Portfolio.tsx:272-276 | Rotating by any multiple of the length changes nothing. |
| Rotation.RotateInverse | client/src/components/sections/Portfolio.tsx:272-276 | Rotating by n and then by -n gives back the original array. |
| ImageCarousel.GoToPrevious | client/src/components/sections/Portfolio.tsx:286-288 | The index stays within the images and becomes (i - 1) mod count, so the first image wraps to the last. |
| ImageCarousel.GoToNext | client/src/components/sections/Portfolio.tsx:290-292 | The index stays within the images and becomes (i + 1) mod count, so the last image wraps to the first. |
| ImageCarousel.ImagesChanged | client/src/components/sections/Portfolio.tsx:294-297 | A new image list restarts the carousel at image 0. |
| ImageCarousel.CounterPosition | client/src/components/sections/Portfolio.tsx:350-353 | The "k / n" counter shows the current image's position counted from 1, which lies between 1 and the image count. |
| ImageCarousel.PreviousNextInverse | client/src/components/sections/Portfolio.tsx:286-292 | Previous then next, and next then previous, both return to the same image. |
| ImageCarousel.FullCycle | client/src/components/sections/Portfolio.tsx:290-292 | k steps forward land on (i + k) mod count. A full round of count steps returns to the start. |
| ImageCarousel.StepsIndex | client/src/components/sections/Portfolio.tsx:290-292 | Any number k of forward steps lands on (i + k) mod count. |
| ProjectSelection.Initial | client/src/components/sections/Portfolio.tsx:650-652 | The gallery starts with no project selected. |
| ProjectSelection.PreviousIndex | client/src/components/sections/Portfolio.tsx:682 | `(i - 1 + L) % L` lies in [0, L) and is (i - 1) mod L. |
| ProjectSelection.NextIndex | client/src/components/sections/Portfolio.tsx:689 | `(i + 1) % L` lies in [0, L) and is (i + 1) mod L. |
| ProjectSelection.PreviousProject | client/src/components/sections/Portfolio.tsx:788-795 | Direction becomes -1. No selection stays no selection. A selection i becomes (i - 1) mod L. |
| ProjectSelection.NextProject | client/src/components/sections/Portfolio.tsx:796-801 | Direction becomes +1. No selection stays no selection. A selection i becomes (i + 1) mod L. |
| ProjectSelection.Close | client/src/components/sections/Portfolio.tsx:786 | Closing clears the selection and keeps the direction. |
| ProjectSelection.SelectThumbnail | client/src/components/sections/Portfolio.tsx:749-752 | A thumbnail click selects its project with direction 0. |
| ProjectSelection.SelectDot | client/src/components/sections/Portfolio.tsx:778-785 | A dot selects its project. The direction becomes +1 exactly when the new index is at least the old one, and -1 exactly when it is smaller. With nothing selected before, the direction is left alone. |
| ProjectSelection.KeyDown | client/src/components/sections/Portfolio.tsx:675-699 | With the detail view closed, or for any other key, nothing changes. |
| ProjectSelection.TransitionsPreserveValid | client/src/components/sections/Portfolio.tsx:675-801 | Every transition keeps the selection within the 18 projects. |
| ProjectSelection.PreviousNextInverse | client/src/components/sections/Portfolio.tsx:788-801 | Previous then next, and next then previous, restore the selection. |
| ProjectSelection.KeysMatchButtons | client/src/components/sections/Portfolio.tsx:678-695 | With a project open, ArrowLeft, ArrowRight and Escape do exactly what the previous, next and close buttons do. |
| ProjectSelection.NextCycles | client/src/components/sections/Portfolio.tsx:796-801 | k presses of next select (i + k) mod L. L presses return to the start. |
| ProjectSelection.NextTimesIndex | client/src/components/sections/Portfolio.tsx:796-801 | Any number k of next presses selects (i + k) mod L. |
| DotWindow.VisibleDotCount | client/src/components/sections/Portfolio.tsx:492 | There are seven dots, or one per project when there are fewer than seven. |
| DotWindow.CentreBalanced | client/src/components/sections/Portfolio.tsx:493 | The centre position has as many dots after it as before it, or one more. With any project it is a valid position. |
| DotWindow.DotAt | client/src/components/sections/Portfolio.tsx:494-496 | Adding `totalProjects` before the truncating `%` makes each dot a valid index, the mathematical (projectIndex - dotHalf + i) mod total. |
| DotWindow.DotIndices | client/src/components/sections/Portfolio.tsx:492-496 | There are min(7, total) dots. Each one is a valid project index, namely (projectIndex - dotHalf + i) mod total. |
| DotWindow.CentreIsCurrent | client/src/components/sections/Portfolio.tsx:492-496 | The dot at position dotHalf is the current project. |
| DotWindow.DotsDistinct | client/src/components/sections/Portfolio.tsx:492-496 | No project appears twice among the dots. |
| DotWindow.ExactlyOneActive | client/src/components/sections/Portfolio.tsx:612 | A dot is active exactly when it is the centre dot. |
| DotWindow.WindowShifts | client/src/components/sections/Portfolio.tsx:494-496 | Moving to the next project, the wrap from the last project to the first included, shifts the window one place. |
| DotWindow.BaseOpacity | client/src/components/sections/Portfolio.tsx:610-611 | Base opacity lies in [0.2, 1] and is 1 exactly at the centre. |
| DotWindow.Look | client/src/components/sections/Portfolio.tsx:612-625 | A dot is drawn active exactly when it shows the current project. An active dot is fully opaque and scaled by 1.2. Any other dot takes its base opacity and shrinks by 0.1 per place from the centre. Every opacity lies in [0.2, 1]. |
| DotWindow.CentreIsBrightest | client/src/components/sections/Portfolio.tsx:609-625 | Within the window, full opacity is reached exactly at the centre dot. |
| DotWindow.OpacityFallsOff | client/src/components/sections/Portfolio.tsx:610-611 | A dot further from the centre is never brighter. |
| ThumbnailStrip.Tripled | client/src/components/sections/Portfolio.tsx:372 | The strip is three times as long, and position k shows project k mod n. |
| ThumbnailStrip.IndexOf | client/src/components/sections/Portfolio.tsx:424 | `indexOf` returns -1 exactly when the item is absent. Otherwise it returns the first position holding it. |
| ThumbnailStrip.ThumbnailMapsBack | client/src/components/sections/Portfolio.tsx:423-424 | With distinct projects, thumbnail k maps back to project k mod n. |
| ThumbnailStrip.Mount | client/src/components/sections/Portfolio.tsx:407 | On mount the strip keeps the container's scroll width and scrolls to the start of the middle copy, one third of that width. No drag is in progress. |
| ThumbnailStrip.CopyWidth | client/src/components/sections/Portfolio.tsx:399 | Three copies make up the whole scroll width. |
| ThumbnailStrip.OnScroll | client/src/components/sections/Portfolio.tsx:398-404 | The offset is left alone exactly when it is strictly inside (0, 2w) or already at w. Otherwise it jumps to w. Afterwards it is strictly inside (0, 2w). |
| ThumbnailStrip.OnScrollIdempotent | client/src/components/sections/Portfolio.tsx:398-404 | A second scroll correction changes nothing. |
| ThumbnailStrip.MouseDown | client/src/components/sections/Portfolio.tsx:375-379 | A press starts a drag and records the pointer and the current offset. The offset and the scroll width are kept. |
| ThumbnailStrip.MouseMove | client/src/components/sections/Portfolio.tsx:381-389 | While dragging, the offset moves twice the pointer distance, opposite to the pointer. Without a drag nothing changes. |
| ThumbnailStrip.MouseUp | client/src/components/sections/Portfolio.tsx:391-393 | Release ends the drag and changes nothing else. |
| ThumbnailStrip.Click | client/src/components/sections/Portfolio.tsx:424-429 | A click during a drag selects nothing. Otherwise thumbnail k selects project k mod n. |
| ThumbnailStrip.DragReturnRestores | client/src/components/sections/Portfolio.tsx:375-389 | A drag that returns to its starting point restores the starting offset. |
| ClockFormat.NatToString | client/src/components/sections/Music.tsx:202 | The decimal digits of a number, with no leading zero: the first digit is 0 exactly for the number 0. The number is one digit exactly when it is below 10, and two digits from 10 to 99. |
| ClockFormat.PadStart2 | client/src/components/sections/Music.tsx:202 | `padStart(2, '0')` leaves strings of two or more characters alone and left-fills shorter ones with zeros to length 2. |
| ClockFormat.IntToString | client/src/components/sections/Music.tsx:202 | A non-negative number prints as its digits, and a negative one as a minus sign before the digits of its magnitude. |
| ClockFormat.FormatTime | client/src/components/sections/Music.tsx:199-203 | For non-negative seconds the label reads back, with no leading zero in the minutes, as minutes floor(s/60) and seconds below 60. mins * 60 + secs is the whole seconds. |
| ClockFormat.ElapsedLabel | client/src/components/sections/Music.tsx:381 | An inactive card shows exactly `0:00`, which reads as 0 minutes 0 seconds. The active card shows `formatTime(currentTime)`. |
| ClockFormat.ParseNatToString | client/src/components/sections/Music.tsx:199-203 | Reading the digits back gives the number. |
| ClockFormat.SecondsSplit | client/src/components/sections/Music.tsx:200-201 | The minutes and seconds fields split floor(s) into a non-negative quotient and a remainder below 60. |
| ClockFormat.ClockRoundTrip | client/src/components/sections/Music.tsx:202 | `m:ss` parses back to (m, ss) for every m and every ss below 60. |
| ClockFormat.PaddedSecondsRoundTrip | client/src/components/sections/Music.tsx:202 | The padded seconds field is two digits that read back as the seconds. |
| ClockFormat.SecondsFieldHasTwoDigits | client/src/components/sections/Music.tsx:199-203 | For non-negative input the label always ends in `:` and exactly two digits. |
| Spectrum.Zeros | client/src/components/sections/Music.tsx:35 | The silent frame is 32 zero levels. |
| Spectrum.SumBounds | client/src/components/sections/Music.tsx:111-114 | A sum of byte bins lies between 0 and 255 times their count. |
| Spectrum.BucketInside | client/src/components/sections/Music.tsx:85-110 | Each bar's bins [i*step, i*step + step) lie inside the analyser's bins. |
| Spectrum.BucketLevel | client/src/components/sections/Music.tsx:109-116 | A bar's level, the bucket average divided by 255, lies in [0, 1]. |
| Spectrum.Frame | client/src/components/sections/Music.tsx:107-117 | The frame has 32 levels, all in [0, 1]. |
| Spectrum.ComputeFrame | client/src/components/sections/Music.tsx:107-117 | The nested loop produces a well-formed frame whose bar i is that bucket's level. |
| Spectrum.SumBins | client/src/components/sections/Music.tsx:111-114 | The inner loop sums exactly the bins start to end-1. |
| Spectrum.TrailingBinsIgnored | client/src/components/sections/Music.tsx:85-114 | Bins past 32 * step never affect the frame. |
| Spectrum.ConstantSpectrum | client/src/components/sections/Music.tsx:107-117 | A flat spectrum of value v gives every bar the level v / 255. |
| Spectrum.FullAnalyserUsesAllBins | client/src/components/sections/Music.tsx:82-85 | With FFT size 512 the 256 bins split into 32 buckets of 8 that cover every bin. |
| Spectrum.SumConstant | client/src/components/sections/Music.tsx:111-114 | n bins of value v sum to n * v. |
| Sampling.UpdateInterval | client/src/components/sections/Music.tsx:87 | The interval is never shorter than 50 ms, and is longer exactly on a low-power device. |
| Sampling.Decide | client/src/components/sections/Music.tsx:89-103 | A callback is silenced exactly when the section is hidden or the device is low-power. It samples exactly when the section is visible, the device is not low-power and 50 ms have passed since the last sample. |
| Sampling.Tick | client/src/components/sections/Music.tsx:90-121 | A frame stays well-formed. The sample time only moves on a real sample: by at least 50 ms, to the frame's timestamp, and with the frame recomputed from the bins. A sampled callback shows exactly the frame of its bins, stamped with its timestamp. A throttled one changes nothing. A silenced one only zeroes the frame. A hidden section shows the silent frame. |
| Sampling.LowPowerNeverSamples | client/src/components/sections/Music.tsx:88-96 | On a low-power device every callback shows the silent frame and never samples, so the 200 ms interval is never used. |
| Sampling.SamplesExactlyWhenDue | client/src/components/sections/Music.tsx:92-103 | A callback samples exactly when the section is visible, the device is not low-power and 50 ms have passed. A throttled callback changes nothing. |
| Sampling.RefreshesAreSpaced | client/src/components/sections/Music.tsx:98-103 | Over any run of callbacks, samples are at least 50 ms apart in total. |
| Sampling.LastUpdateIsSeen | client/src/components/sections/Music.tsx:103 | The recorded sample time never passes a bound that the initial time and every timestamp respect. |
| Sampling.ThrottleBound | client/src/components/sections/Music.tsx:98-103 | Measured from the last sample: callbacks stamped no later than `until` sample at most (until - lastUpdate) / 50 times. |
| Sampling.WindowBound | client/src/components/sections/Music.tsx:98-103 | Callbacks all stamped within a window of length T sample at most T / 50 + 1 times, whenever the previous sample was. |
| Playback.FlatWaveform | client/src/components/sections/Music.tsx:17 | Every idle waveform is 32 bars of height 10. |
| Playback.KnownTracks | client/src/components/sections/Music.tsx:9-28 | `tracks.find` succeeds exactly for ids 1 and 2. |
| Playback.Init | client/src/components/sections/Music.tsx:31-47 | On mount nothing is active, paused, with no element and nothing queued. |
| Playback.ReleaseAudio | client/src/components/sections/Music.tsx:142-146 | The current element is paused and dropped. Nothing else changes. |
| Playback.StopAnalysis | client/src/components/sections/Music.tsx:126-132 | The sampling callback is cancelled and the frame zeroed. Nothing else changes. |
| Playback.StartAnalysis | client/src/components/sections/Music.tsx:78-79 | The sampling callback starts only when both an element and an analyser exist. |
| Playback.SetPlaying | client/src/components/sections/Music.tsx:66-76 | The `isPlaying` effect runs only on a change and only with an element. Pausing stops sampling with a silent frame. Playing with an analyser starts sampling. |
| Playback.TogglePlay | client/src/components/sections/Music.tsx:134-162 | An unknown id does nothing. The active id flips play/pause and keeps element, time and session. Another id releases the element, stops sampling and resets time, duration and frame. It keeps the active track and queues exactly that id's build. Either way mounting, drag state, the element count, the analyser and the context are kept. |
| Playback.BuildFires | client/src/components/sections/Music.tsx:163-195 | The oldest queued build creates a new element for its track, wired with source, analyser and context. While mounted it becomes the active, playing track. When unmounted nothing visible changes, but the element exists and plays. Time, duration, drag state and mounting are kept. |
| Playback.Ended | client/src/components/sections/Music.tsx:185-189 | `ended` stops sampling and keeps the session. Mounted, it pauses at time 0 with a silent frame and the same duration, with no auto-advance. |
| Playback.TimeUpdate | client/src/components/sections/Music.tsx:179-181 | The displayed time follows the element while mounted. |
| Playback.MetadataLoaded | client/src/components/sections/Music.tsx:182-184 | The duration follows the element's metadata while mounted. |
| Playback.AnimationFrame | client/src/components/sections/Music.tsx:90-121 | Only the analysis changes, and only while a callback is scheduled. The frame stays well-formed. |
| Playback.Clamp | client/src/components/sections/Music.tsx:227 | `Math.max(lo, Math.min(x, hi))` lies in [lo, hi]. It is x when x is already there, lo when x is at or below lo, and hi when x is at or above hi. |
| Playback.ProgressClick | client/src/components/sections/Music.tsx:205-218 | Only the active track with an element seeks. The new time is the click's fraction of the width times the duration, unclamped. |
| Playback.ProgressDrag | client/src/components/sections/Music.tsx:220-233 | Only a drag on the active track with an element seeks. The new time is the pointer's offset, clamped to the bar width, as a fraction of the width times the duration. It lies in [0, duration]. Only the time changes. |
| Playback.BarMouseDown | client/src/components/sections/Music.tsx:235-237 | Pressing the bars starts a drag only on the active track. |
| Playback.WindowMouseUp | client/src/components/sections/Music.tsx:239-248 | Releasing the mouse ends the drag and changes nothing else. |
| Playback.UnmountAsWritten | client/src/components/sections/Music.tsx:50-64 | Unmount as written: pause and drop the element, close the context, cancel sampling, and leave the queued builds in place. The active track, play state, time, element count and analyser are kept. |
| Playback.Unmount | client/src/components/sections/Music.tsx:50-64 | Unmount with the queued builds cleared as well. |
| PlayerProperties.Step | client/src/components/sections/Music.tsx:50-248 | The page's own handlers are gone once the section unmounts, so their events then change nothing. The 50 ms build timers and the element's `ended` listener survive unmount and still run. A teardown runs the cleanup as written. |
| PlayerProperties.InitConsistent | client/src/components/sections/Music.tsx:31-47 | The mount state satisfies the controller invariant. |
| PlayerProperties.StepConsistent | client/src/components/sections/Music.tsx:50-248 | Every event keeps the invariant, with teardown is the unmount cleanup as written, which leaves queued builds in place. Sampling runs only while mounted, playing and holding an element. An element always has its source, analyser and context. Element numbers are fresh. Only catalogue tracks are queued or active. The frame has 32 levels in [0, 1]. |
| PlayerProperties.RunConsistent | client/src/components/sections/Music.tsx:50-248 | The invariant holds after any sequence of events, unmounts as written included. |
| PlayerProperties.OnlyBuildActivates | client/src/components/sections/Music.tsx:134-195 | No event but the deferred build changes which track is active. Teardown is the unmount cleanup as written, which leaves queued builds in place. |
| PlayerProperties.BuildActivates | client/src/components/sections/Music.tsx:191-194 | While mounted, the build makes its track active and playing with the newly created element. |
| PlayerProperties.ToggleTwice | client/src/components/sections/Music.tsx:66-139 | A press on the active track flips play/pause, and pausing stops sampling. Two presses restore play state, element, session, time and duration. |
| PlayerProperties.StepDisciplined | client/src/components/sections/Music.tsx:134-195 | If switches are issued only with no build pending, one event keeps these facts: at most one build is queued, nothing is live while it is, and otherwise only the referenced element is live. Teardown is the unmount cleanup as written, which leaves queued builds in place. |
| PlayerProperties.RunDisciplined | client/src/components/sections/Music.tsx:134-195 | The same holds across any sequence of events with that restriction, unmounts as written included. |
| PlayerProperties.SingleElementWhenSettled | client/src/components/sections/Music.tsx:134-195 | Take any such run from mount, unmounts as written included. Once no build is pending, at most one element is live, and it is the referenced one. |
| PlayerProperties.QuickSwitchesLeaveTwoElements | client/src/components/sections/Music.tsx:163-195 | Two switches inside the 50 ms window leave two live elements once both builds have run. The first element is never paused. |
| PlayerProperties.UnmountLeavesBuildPending | client/src/components/sections/Music.tsx:50-64 | Press play, then unmount within 50 ms with the cleanup as written, then let the timer fire. The section is unmounted, yet the new element is live, and it is the referenced element. |
| PlayerProperties.StepQuiet | client/src/components/sections/Music.tsx:50-64 | After the corrected unmount, no event creates, queues or samples anything. |
| PlayerProperties.UnmountSilencesForever | client/src/components/sections/Music.tsx:50-64 | Start from the corrected unmount of a disciplined state: at most one build queued, nothing live while it is, and otherwise only the referenced element live. Then run any events, later unmounts as written included. No element becomes live, none is queued and no sampling runs. |
| Scrubber.TrackProgress | client/src/components/sections/Music.tsx:278 | Progress is 0 except on the active card with a known duration, where progress times duration is the current time. It lies in [0, 1] while the time is within the track. |
| Scrubber.PastFlags | client/src/components/sections/Music.tsx:341-343 | On the active card, bar i is drawn as played exactly when i is at most 32 times the progress. On other cards no bar is. |
| Scrubber.PastIsPrefix | client/src/components/sections/Music.tsx:342-343 | Played bars form a prefix: the fill grows from the left. |
| Scrubber.PastCount | client/src/components/sections/Music.tsx:341-343 | The active card has min(32, floor(32p) + 1) played bars, and other cards none. |
| Scrubber.HalfwayFillsSeventeen | client/src/components/sections/Music.tsx:342-343 | At progress 0.5, 17 bars are filled. |
| Scrubber.FinishedFillsAll | client/src/components/sections/Music.tsx:342-343 | At progress 1 or more, all 32 bars are filled. |
| Scrubber.BarHeight | client/src/components/sections/Music.tsx:345-347 | A playing card with a positive level draws at least 15 and at least level * 100. Otherwise it draws the stored waveform. |
| Scrubber.BarHeights | client/src/components/sections/Music.tsx:341-347 | A card has 32 heights. Height i is `BarHeight` of bar i's stored height and level, with the card active when its track is and playing when it is active and the player plays. |
| Scrubber.IdleCardShowsWaveform | client/src/components/sections/Music.tsx:345-347 | A card that is not playing shows its stored waveform exactly. |
| Scrubber.LiveBarsInRange | client/src/components/sections/Music.tsx:345-347 | On a playing card, live bars stay between 15% and 100%. |
| Scrubber.DragInsideMatchesClick | client/src/components/sections/Music.tsx:205-233 | A drag over the bars seeks exactly where a click at the same point would. |
| Scrubber.ClickInsideStaysInTrack | client/src/components/sections/Music.tsx:211-217 | A click inside the bars seeks within [0, duration]. |
| Scrubber.SeekEnds | client/src/components/sections/Music.tsx:211-217 | The left edge seeks to 0 and the right edge to the duration. |
| Scrubber.DragPastEnds | client/src/components/sections/Music.tsx:227-229 | A drag left of the bars seeks to 0, and a drag right of them seeks to the duration. |
| Typewriter.EncodeChar | client/src/components/ui/typewriter-reveal.tsx:18-19 | A character inside the Basic Multilingual Plane is one code unit, itself. Any other is a high surrogate followed by a low one, and the two decode back to the character. |
| Typewriter.Utf16 | client/src/components/ui/typewriter-reveal.tsx:18-19 | A string's `length` is its character count plus one for each character outside the Basic Multilingual Plane. It equals the character count exactly when there is no such character. |
| Typewriter.Init | client/src/components/ui/typewriter-reveal.tsx:11-12 | The reveal starts with nothing shown, not complete, and no interval set. |
| Typewriter.InitShowsCaret | client/src/components/ui/typewriter-reveal.tsx:11-40 | The caret is visible at the start. |
| Typewriter.Start | client/src/components/ui/typewriter-reveal.tsx:15-17 | When the delay elapses the interval starts at index 0. The shown text and the completion flag are untouched. |
| Typewriter.Tick | client/src/components/ui/typewriter-reveal.tsx:17-25 | A tick keeps the invariant that the shown text is the first `index` code units. With code units left it shows one more, extending the previous text. With none left it completes with the whole text and stops. |
| Typewriter.TicksReveal | client/src/components/ui/typewriter-reveal.tsx:16-20 | After k ≤ length ticks, length counted in code units, the first k code units are shown and the caret still pulses. |
| Typewriter.TicksFrom | client/src/components/ui/typewriter-reveal.tsx:16-20 | From any index, k more ticks within the text advance the index by k and keep the invariant. |
| Typewriter.CompletesAfterLengthPlusOne | client/src/components/ui/typewriter-reveal.tsx:18-24 | Exactly length + 1 ticks, length counted in code units, complete the reveal, with the whole text shown and the caret gone. An empty text completes on the first tick. |
| Typewriter.CompleteIsFinal | client/src/components/ui/typewriter-reveal.tsx:21-23 | Once complete, further ticks change nothing. |
| Typewriter.DisplayedGrows | client/src/components/ui/typewriter-reveal.tsx:18-20 | The shown text only grows. Each state's text is a prefix of every later one. |
| Typewriter.TicksAdd | client/src/components/ui/typewriter-reveal.tsx:16-25 | a + b ticks are a ticks followed by b more. |
| Typewriter.CaretUntilComplete | client/src/components/ui/typewriter-reveal.tsx:38-40 | From mount, the caret is drawn after k ticks exactly when k is at most the text's length in code units. |
| Typewriter.StringCompletes | client/src/components/ui/typewriter-reveal.tsx:18-24 | For any string, the reveal completes after one tick per character, one more per character outside the Basic Multilingual Plane, and one final tick, and not a tick earlier. |
| Typewriter.AstralCharacterTakesTwoTicks | client/src/components/ui/typewriter-reveal.tsx:18-24 | A lone emoji is two code units. The first tick shows only its high surrogate, and the reveal completes on the third tick. |

## Left out

- Rendering: JSX, CSS classes, framer-motion animations, hover effects and portals are visual only.
- Browser objects are abstract handles:
  - `Audio`, `AudioContext`, `AnalyserNode` and the media source;
  - `requestAnimationFrame`, `setTimeout` and `setInterval`;
  - `IntersectionObserver`;
  - the media element's own `currentTime`. The model's `MediaTime(t)` carries an arbitrary time, so a seek and a later `timeupdate` are not linked.
- The analyser's bins are an input of each frame event: any number of bytes, at least 32. The player's analyser, with FFT size 512, delivers 256 (`Spectrum.FullAnalyserUsesAllBins`).
- Device visibility and low-power status are inputs. `use-device-capabilities.ts` is not part of this model; where `navigator.getBattery` exists, the site always reports a low-power device.
- Floating point: times, fractions, offsets and levels are exact reals. NaN and Infinity are not modelled. The spectrum, click and drag members therefore require at least 32 bins and a positive bar width, where JavaScript would produce NaN or Infinity.
- ClockFormat.FormatTime: stated for non-negative seconds only. A negative time prints with a leading minus, and the model computes it but states nothing about it.
- ThumbnailStrip.MouseMove: the browser clamps a written `scrollLeft` to [0, scrollWidth - clientWidth]. The viewport width `clientWidth` is not modelled, so the model keeps the unclamped offset. A drag past either end can therefore leave the model's offset, and the wrap that `ThumbnailStrip.OnScroll` then takes, different from the browser's.
- ImageCarousel.GoToPrevious: requires a current image. The buttons are only rendered with more than one image.
- Rotation.Rotate: `rotate` is never called by the site. Its empty-array case is modelled as yielding an empty array, which is what the NaN offset gives in JavaScript.
- The deferred-build race: exclusivity of the playing element is proved only for runs in which a switch waits for the previous build. Two quick switches are only exhibited (`PlayerProperties.QuickSwitchesLeaveTwoElements`) and not repaired.
- Stale closures: a sampling callback keeps the visibility and low-power values it captured at start. They are a fixed `Sampling.Config` per callback, and their later changes are not tracked.
- PlayerProperties.UnmountSilencesForever: requires a disciplined state. After two switches inside the 50 ms window (`PlayerProperties.QuickSwitchesLeaveTwoElements`) the first element is orphaned: it is live but no longer referenced. The corrected `Playback.Unmount` releases only the referenced element, so it does not silence that state.
- The `ended` event is taken from whichever element is current. Events from a released element are not modelled.
- Typewriter.Tick: the reveal works on code units, as the source does, so a shown prefix can end in a lone high surrogate (`Typewriter.AstralCharacterTakesTwoTicks`). How the browser draws such a prefix is rendering and is not modelled.
- The typewriter's timer lifecycle:
  - the cleanup returned inside the start timeout (typewriter-reveal.tsx:27) is discarded by the browser;
  - a change of text resets neither the shown text nor the completion flag.

  Neither is modelled, and no reset is claimed.
- Portfolio DOM side effects (body overflow and class toggling, aspect-ratio measurement) and the other components (particles, cursor, images, contact form, hooks, bootstrap) are outside the model.

## Findings

| source | as written | input that shows it | evidently intended | confidence | as-written member | corrected member |
|---|---|---|---|---|---|---|
| client/src/components/sections/Music.tsx:50-64 | The unmount cleanup pauses the element, closes the context and cancels sampling. It does not clear the 50 ms build timeout that `togglePlay` schedules (lines 163-195). | Press play on a track, then leave the section within 50 ms. The timeout then creates a new context and element and calls `play()`, on a section that is gone and with nothing left that could stop it. | Unmount also cancels pending builds, so nothing plays after the section is gone. | not executed; follows from the timer semantics | PlayerProperties.UnmountLeavesBuildPending (on Playback.UnmountAsWritten) | Playback.Unmount with PlayerProperties.UnmountSilencesForever |

=== FILE: clock_format.dfy ===
/**
 * The `m:ss` time labels of the music player, and a reader for them that
 * recovers the minutes and seconds a label was made from.
 */
module ClockFormat {
  import opened Wrappers
  import JsArith

  predicate IsDigit(c: char) {
    '0' <= c <= '9'
  }

  predicate AllDigits(s: string) {
    forall i :: 0 <= i < |s| ==> IsDigit(s[i])
  }

  function DigitChar(d: nat): (c: char)
    requires d < 10
    ensures IsDigit(c)
  {
    "0123456789"[d]
  }

  function DigitValue(c: char): (d: nat)
    requires IsDigit(c)
    ensures d < 10
  {
    (c - '0') as nat
  }

  /** The decimal digits of a natural number, without leading zeros. */
  function NatToString(n: nat): (s: string)
    ensures 1 <= |s| && AllDigits(s)
    ensures s[0] == '0' <==> n == 0
    ensures n < 10 <==> |s| == 1
    ensures 10 <= n < 100 ==> |s| == 2
  {
    if n < 10 then [DigitChar(n)] else NatToString(n / 10) + [DigitChar(n % 10)]
  }

  /** An integer's `toString()`: a minus sign before the digits of a negative number. */
  function IntToString(n: int): (s: string)
    ensures n >= 0 ==> s == NatToString(n)
    ensures n < 0 ==> s == "-" + NatToString(-n)
  {
    if n < 0 then "-" + NatToString(-n) else NatToString(n)
  }

  /** `padStart(2, '0')`. */
  function PadStart2(s: string): (r: string)
    ensures |s| >= 2 ==> r == s
    ensures |s| < 2 ==> |r| == 2 && r[2 - |s|..] == s && forall i :: 0 <= i < 2 - |s| ==> r[i] == '0'
  {
    if |s| >= 2 then s else seq(2 - |s|, _ => '0') + s
  }

  /**
   * `formatTime(seconds)`: `${Math.floor(seconds / 60)}:${Math.floor(seconds % 60)}`
   * with the seconds padded to two places. For a non-negative time the label
   * reads back as whole minutes and a seconds field below 60 that together
   * make up the whole seconds elapsed.
   */
  function FormatTime(seconds: real): (shown: string)
    ensures seconds >= 0.0 ==> ParseClock(shown).Some?
    ensures seconds >= 0.0 ==> var c := ParseClock(shown).value;
      && c.mins == (seconds / 60.0).Floor
      && c.secs < 60
      && c.mins * 60 + c.secs == seconds.Floor
  {
    var mins := (seconds / 60.0).Floor;
    var secs := JsArith.RealRem(seconds, 60.0).Floor;
    var shown := IntToString(mins) + ":" + PadStart2(IntToString(secs));
    if seconds >= 0.0 then
      SecondsSplit(seconds);
      ClockRoundTrip(mins, secs);
      shown
    else shown
  }

  /** The elapsed-time label of one track: `0:00` unless the track is the active one. */
  function ElapsedLabel(isTrackActive: bool, currentTime: real): (shown: string)
    ensures !isTrackActive ==> shown == "0:00" && ParseClock(shown) == Some(Clock(0, 0))
    ensures isTrackActive ==> shown == FormatTime(currentTime)
  {
    if isTrackActive then FormatTime(currentTime)
    else
      ClockRoundTrip(0, 0);
      assert NatToString(0) + ":" + PadStart2(NatToString(0)) == "0:00";
      "0:00"
  }

  /** The value of a string of decimal digits. */
  function ParseNat(s: string): nat
    requires AllDigits(s)
  {
    if |s| == 0 then 0 else ParseNat(s[..|s| - 1]) * 10 + DigitValue(s[|s| - 1])
  }

  /** Minutes and seconds read back from a label. */
  datatype Clock = Clock(mins: nat, secs: nat)

  /**
   * Reads a label of the form `<digits>:<two digits>` whose minutes have no
   * leading zero, the only form `formatTime` prints for a non-negative time.
   */
  function ParseClock(shown: string): Option<Clock> {
    if |shown| >= 4 && shown[|shown| - 3] == ':'
       && AllDigits(shown[..|shown| - 3]) && AllDigits(shown[|shown| - 2..])
       && (|shown| == 4 || shown[0] != '0')
    then Some(Clock(ParseNat(shown[..|shown| - 3]), ParseNat(shown[|shown| - 2..])))
    else None
  }

  lemma {:induction false} ParseNatToString(n: nat)
    ensures ParseNat(NatToString(n)) == n
  {
    if n >= 10 {
      var s := NatToString(n);
      assert s[..|s| - 1] == NatToString(n / 10);
      ParseNatToString(n / 10);
    }
  }

  /** `floor(x - k) == floor(x) - k` for an integer `k`. */
  lemma FloorShift(x: real, k: int)
    ensures (x - k as real).Floor == x.Floor - k
  {
  }

  /** Whole minutes and the floored remainder split the whole seconds. */
  lemma SecondsSplit(seconds: real)
    requires seconds >= 0.0
    ensures (seconds / 60.0).Floor >= 0
    ensures 0 <= JsArith.RealRem(seconds, 60.0).Floor < 60
    ensures (seconds / 60.0).Floor * 60 + JsArith.RealRem(seconds, 60.0).Floor == seconds.Floor
  {
    var m := (seconds / 60.0).Floor;
    var rem := JsArith.RealRem(seconds, 60.0);
    assert rem == seconds - (m * 60) as real;
    FloorShift(seconds, m * 60);
  }

  /** A label built from minutes and a seconds field below 60 reads back as both. */
  lemma ClockRoundTrip(m: nat, secs: nat)
    requires secs < 60
    ensures ParseClock(NatToString(m) + ":" + PadStart2(NatToString(secs))) == Some(Clock(m, secs))
  {
    PaddedSecondsRoundTrip(secs);
    ParseNatToString(m);
    ParseJoined(NatToString(m), PadStart2(NatToString(secs)));
  }

  /** Digits, a colon and two more digits read back as the two numbers. */
  lemma ParseJoined(minsText: string, secsText: string)
    requires 1 <= |minsText| && AllDigits(minsText) && (|minsText| == 1 || minsText[0] != '0')
    requires |secsText| == 2 && AllDigits(secsText)
    ensures ParseClock(minsText + ":" + secsText) == Some(Clock(ParseNat(minsText), ParseNat(secsText)))
  {
    var shown := minsText + ":" + secsText;
    var n := |minsText|;
    assert |shown| == n + 3;
    assert shown[n] == ':' && shown[0] == minsText[0];
    assert shown[..n] == minsText;
    assert shown[n + 1..] == secsText;
    assert AllDigits(shown[..n]) && AllDigits(shown[n + 1..]);
  }

  lemma PaddedSecondsRoundTrip(secs: nat)
    requires secs < 60
    ensures |PadStart2(NatToString(secs))| == 2
    ensures AllDigits(PadStart2(NatToString(secs)))
    ensures ParseNat(PadStart2(NatToString(secs))) == secs
  {
    var p := PadStart2(NatToString(secs));
    ParseNatToString(secs);
    if secs < 10 {
      assert p == "0" + NatToString(secs);
      assert p[..1] == "0";
    }
  }

  /** The seconds field of a label always has exactly two digits. */
  lemma SecondsFieldHasTwoDigits(seconds: real)
    requires seconds >= 0.0
    ensures var shown := FormatTime(seconds);
      |shown| >= 4 && shown[|shown| - 3] == ':' && IsDigit(shown[|shown| - 2]) && IsDigit(shown[|shown| - 1])
  {
  }
}

=== FILE: dot_window.dfy ===
/**
 * The row of at most seven dots under an open project: a window of
 * project indices centred on the current project, faded with distance
 * from the centre.
 */
module DotWindow {
  import JsArith
  import ProjectSelection

  /** `Math.min(7, totalProjects)`: seven dots, or one per project when there are fewer. */
  function VisibleDotCount(total: nat): (n: nat)
    ensures n <= 7 && n <= total
    ensures n == 7 || n == total
  {
    if total < 7 then total else 7
  }

  /** `Math.floor(visibleDotCount / 2)`: the position of the centre dot. */
  function DotHalf(total: nat): nat {
    VisibleDotCount(total) / 2
  }

  /** The centre dot has as many dots after it as before it, or one more, and exists whenever a project does. */
  lemma CentreBalanced(total: nat)
    ensures 2 * DotHalf(total) <= VisibleDotCount(total) <= 2 * DotHalf(total) + 1
    ensures total > 0 ==> DotHalf(total) < VisibleDotCount(total)
  {
  }

  /** `|i - dotHalf|`. */
  function Distance(i: nat, total: nat): nat {
    if i < DotHalf(total) then DotHalf(total) - i else i - DotHalf(total)
  }

  /** `(projectIndex - dotHalf + i + totalProjects) % totalProjects` for every dot position `i`. */
  function DotIndices(projectIndex: nat, total: nat): (dots: seq<nat>)
    requires projectIndex < total
    ensures |dots| == VisibleDotCount(total)
    ensures forall i :: 0 <= i < |dots| ==> dots[i] < total
    ensures forall i :: 0 <= i < |dots| ==> dots[i] == (projectIndex - DotHalf(total) + i) % total
  {
    seq(VisibleDotCount(total), i requires 0 <= i < VisibleDotCount(total) => DotAt(projectIndex, total, i))
  }

  /** One entry of the window; the shift by `total` keeps the dividend non-negative. */
  function DotAt(projectIndex: nat, total: nat, i: nat): (d: nat)
    requires projectIndex < total
    ensures d < total && d == (projectIndex - DotHalf(total) + i) % total
  {
    JsArith.ModShift(projectIndex - DotHalf(total) + i, 1, total);
    JsArith.Rem(projectIndex - DotHalf(total) + i + total, total)
  }

  /** The centre dot is the current project. */
  lemma CentreIsCurrent(projectIndex: nat, total: nat)
    requires projectIndex < total
    ensures DotHalf(total) < |DotIndices(projectIndex, total)|
    ensures DotIndices(projectIndex, total)[DotHalf(total)] == projectIndex
  {
    JsArith.ModUnique(projectIndex, total, 0, projectIndex);
  }

  /** The dots name pairwise distinct projects. */
  lemma {:induction false} DotsDistinct(projectIndex: nat, total: nat)
    requires projectIndex < total
    ensures forall i, j :: 0 <= i < j < |DotIndices(projectIndex, total)| ==>
      DotIndices(projectIndex, total)[i] != DotIndices(projectIndex, total)[j]
  {
    var dots := DotIndices(projectIndex, total);
    forall i, j | 0 <= i < j < |dots|
      ensures dots[i] != dots[j]
    {
      DotsDistinctAt(projectIndex, total, i, j);
    }
  }

  lemma DotsDistinctAt(projectIndex: nat, total: nat, i: nat, j: nat)
    requires projectIndex < total && i < j < VisibleDotCount(total)
    ensures DotAt(projectIndex, total, i) != DotAt(projectIndex, total, j)
  {
    var c := projectIndex - DotHalf(total);
    var x, y := c + j, c + i;
    assert DotAt(projectIndex, total, i) == y % total;
    assert DotAt(projectIndex, total, j) == x % total;
    assert y <= x < y + total;
    if x % total == y % total {
      JsArith.ModInjective(x, y, total);
    }
  }

  /** Exactly one dot is drawn as active: the one at the centre position. */
  lemma ExactlyOneActive(projectIndex: nat, total: nat, i: nat)
    requires projectIndex < total && i < VisibleDotCount(total)
    ensures DotIndices(projectIndex, total)[i] == projectIndex <==> i == DotHalf(total)
  {
    CentreIsCurrent(projectIndex, total);
    DotsDistinct(projectIndex, total);
  }

  /**
   * Stepping the window: the dots for the next project, the wrap from the
   * last project to the first included, are the current ones shifted by one.
   */
  lemma WindowShifts(projectIndex: nat, total: nat, i: nat)
    requires projectIndex < total && i + 1 < VisibleDotCount(total)
    ensures DotIndices(ProjectSelection.NextIndex(projectIndex, total), total)[i] == DotIndices(projectIndex, total)[i + 1]
  {
    ShiftArith(projectIndex, total, DotHalf(total), i, ProjectSelection.NextIndex(projectIndex, total));
  }

  /** The arithmetic behind `WindowShifts`: the window offset commutes with the wrap of the next index. */
  lemma ShiftArith(p: int, total: int, h: int, i: int, next: int)
    requires total > 0 && next == (p + 1) % total
    ensures (next - h + i) % total == (p - h + (i + 1)) % total
  {
    assert next - h + i == next + (i - h);
    assert p - h + (i + 1) == p + 1 + (i - h);
    JsArith.ModAdd(p + 1, i - h, total);
  }

  /** `Math.max(0.2, 1 - distance / (dotHalf + 1))`. */
  function BaseOpacity(i: nat, total: nat): (o: real)
    ensures 0.2 <= o <= 1.0
    ensures o == 1.0 <==> i == DotHalf(total)
  {
    var faded := 1.0 - Distance(i, total) as real / (DotHalf(total) + 1) as real;
    if faded < 0.2 then 0.2 else faded
  }

  /** How a dot is drawn. */
  datatype DotLook = DotLook(active: bool, opacity: real, scale: real)

  /** The active dot is fully opaque and enlarged; the others fade and shrink with distance. */
  function Look(dots: seq<nat>, projectIndex: nat, i: nat, total: nat): (look: DotLook)
    requires i < |dots|
    ensures look.active <==> dots[i] == projectIndex
    ensures look.active ==> look.opacity == 1.0 && look.scale == 1.2
    ensures 0.2 <= look.opacity <= 1.0
    ensures !look.active ==> look.opacity == BaseOpacity(i, total)
    ensures !look.active ==> look.scale == 1.0 - Distance(i, total) as real * 0.1
  {
    var active := dots[i] == projectIndex;
    DotLook(active,
            if active then 1.0 else BaseOpacity(i, total),
            if active then 1.2 else 1.0 - Distance(i, total) as real * 0.1)
  }

  /** In the window of the current project only the centre dot is fully opaque. */
  lemma CentreIsBrightest(projectIndex: nat, total: nat, i: nat)
    requires projectIndex < total && i < VisibleDotCount(total)
    ensures var look := Look(DotIndices(projectIndex, total), projectIndex, i, total);
      look.opacity == 1.0 <==> i == DotHalf(total)
  {
    ExactlyOneActive(projectIndex, total, i);
  }

  /** Opacity never increases with distance from the centre. */
  lemma OpacityFallsOff(i: nat, j: nat, total: nat)
    requires Distance(i, total) <= Distance(j, total)
    ensures BaseOpacity(i, total) >= BaseOpacity(j, total)
  {
    var h := (DotHalf(total) + 1) as real;
    var x, y := Distance(i, total) as real, Distance(j, total) as real;
    assert y / h - x / h == (y - x) / h;
    assert (y - x) / h >= 0.0;
    var fi, fj := 1.0 - x / h, 1.0 - y / h;
    assert fj <= fi;
    assert BaseOpacity(i, total) == (if fi < 0.2 then 0.2 else fi);
    assert BaseOpacity(j, total) == (if fj < 0.2 then 0.2 else fj);
  }
}

=== FILE: image_carousel.dfy ===
/**
 * The image carousel inside a project's detail view: an index into the
 * project's images that steps forwards and backwards with wrap-around.
 */
module ImageCarousel {
  import JsArith

  /** The carousel's state: how many images it shows and which one is current. */
  datatype Carousel = Carousel(count: nat, index: nat)

  /** The index is a valid image position, or 0 when there are no images to show. */
  predicate Valid(c: Carousel) {
    if c.count == 0 then c.index == 0 else c.index < c.count
  }

  /** `goToPrevious`: the first image steps back to the last one. */
  function GoToPrevious(c: Carousel): (r: Carousel)
    requires c.index < c.count
    ensures r.count == c.count && Valid(r)
    ensures r.index == (c.index - 1) % c.count
  {
    c.(index := if c.index == 0 then c.count - 1 else c.index - 1)
  }

  /** `goToNext`: the last image steps forward to the first one. */
  function GoToNext(c: Carousel): (r: Carousel)
    requires c.index < c.count
    ensures r.count == c.count && Valid(r)
    ensures r.index == (c.index + 1) % c.count
  {
    c.(index := if c.index == c.count - 1 then 0 else c.index + 1)
  }

  /** A new list of images always restarts the carousel at the first image. */
  function ImagesChanged(c: Carousel, count: nat): (r: Carousel)
    ensures Valid(r) && r.count == count
    ensures r.index == 0
  {
    Carousel(count, 0)
  }

  /** The "k / n" counter shown when there are several images. */
  function CounterPosition(c: Carousel): (position: nat)
    requires Valid(c) && c.count > 0
    ensures 1 <= position <= c.count
    ensures position - 1 == c.index
  {
    c.index + 1
  }

  /** Previous and next are mutual inverses. */
  lemma PreviousNextInverse(c: Carousel)
    requires c.index < c.count
    ensures GoToNext(GoToPrevious(c)) == c
    ensures GoToPrevious(GoToNext(c)) == c
  {
  }

  /** Stepping forwards `count` times returns to the starting image. */
  lemma FullCycle(c: Carousel, k: nat)
    requires c.index < c.count && k <= c.count
    ensures Steps(c, k).index == (c.index + k) % c.count
    ensures Steps(c, c.count) == c
  {
    StepsIndex(c, k);
    StepsIndex(c, c.count);
    JsArith.ModUnique(c.index + c.count, c.count, 1, c.index);
  }

  /** `k` presses of the next button. */
  function Steps(c: Carousel, k: nat): (r: Carousel)
    requires c.index < c.count
    ensures r.count == c.count && r.index < r.count
  {
    if k == 0 then c else GoToNext(Steps(c, k - 1))
  }

  lemma {:induction false} StepsIndex(c: Carousel, k: nat)
    requires c.index < c.count
    ensures Steps(c, k).index == (c.index + k) % c.count
  {
    if k > 0 {
      StepsIndex(c, k - 1);
      JsArith.ModAdd(c.index + k - 1, 1, c.count);
    }
  }
}

=== FILE: js_arith.dfy ===
/**
 * JavaScript arithmetic the components rely on, stated against Dafny's
 * Euclidean `/` and `%`. JavaScript's `%` truncates toward zero, so the
 * remainder takes the sign of the dividend.
 */
module JsArith {

  /** `a % b` on integral JavaScript numbers, for a positive divisor. */
  function Rem(a: int, b: int): (r: int)
    requires b > 0
    ensures -b < r < b
    ensures a >= 0 ==> r == a % b
    ensures a < 0 ==> r <= 0
    ensures (a - r) % b == 0
  {
    if a >= 0 then
      ModUnique(a - a % b, b, a / b, 0);
      a % b
    else
      var q, m := (-a) / b, (-a) % b;
      assert a - -m == (-q) * b;
      ModUnique(a - -m, b, -q, 0);
      -m
  }

  /** `Math.trunc` on reals. */
  function Trunc(x: real): (t: int)
    ensures x >= 0.0 ==> t == x.Floor
    ensures x < 0.0 ==> t <= 0 && x <= t as real
  {
    if x >= 0.0 then x.Floor else -((-x).Floor)
  }

  /** `a % b` on JavaScript numbers for a positive divisor: `a - b * trunc(a / b)`. */
  function RealRem(a: real, b: real): (r: real)
    requires b > 0.0
    ensures a >= 0.0 ==> 0.0 <= r
    ensures a >= 0.0 ==> r < b
    ensures a >= 0.0 ==> r == a - b * ((a / b).Floor as real)
  {
    if a >= 0.0 then
      var f := (a / b).Floor as real;
      FloorRemBounds(a, b, f);
      a - b * f
    else
      a - b * Trunc(a / b) as real
  }

  lemma FloorRemBounds(a: real, b: real, f: real)
    requires b > 0.0 && f <= a / b < f + 1.0
    ensures 0.0 <= a - b * f
    ensures a - b * f < b
  {
    var x := a / b;
    var g := x - f;
    assert 0.0 <= g < 1.0;
    assert b * x == a;
    assert a - b * f == b * g;
    assert b - b * g == b * (1.0 - g);
    assert b * (1.0 - g) > 0.0;
  }

  /** Euclidean remainder is determined by any quotient/remainder pair. */
  lemma ModUnique(a: int, b: int, q: int, r: int)
    requires b > 0 && 0 <= r < b && a == q * b + r
    ensures a % b == r && a / b == q
  {
    var d := a / b - q;
    assert d * b == r - a % b;
    if d >= 1 {
      MulMono(d, 1, b);
    } else if d <= -1 {
      MulMono(-1, d, b);
    }
  }

  lemma MulMono(x: int, y: int, b: int)
    requires x >= y && b >= 0
    ensures x * b >= y * b
  {
    assert x * b - y * b == (x - y) * b;
  }

  /** Adding a multiple of the modulus does not change the remainder. */
  lemma ModShift(a: int, k: int, b: int)
    requires b > 0
    ensures (a + k * b) % b == a % b
  {
    ModUnique(a + k * b, b, a / b + k, a % b);
  }

  /** The remainder of a sum depends only on the remainders of its summands. */
  lemma ModAdd(a: int, c: int, b: int)
    requires b > 0
    ensures (a % b + c) % b == (a + c) % b
  {
    assert a + c == a % b + c + (a / b) * b;
    ModShift(a % b + c, a / b, b);
  }

  /** Two numbers closer than the modulus with equal remainders are equal. */
  lemma ModInjective(x: int, y: int, b: int)
    requires b > 0 && x % b == y % b && y <= x < y + b
    ensures x == y
  {
    var qx, qy := x / b, y / b;
    assert x - y == (qx - qy) * b;
    if qx - qy >= 1 {
      MulMono(qx - qy, 1, b);
    } else if qx - qy <= -1 {
      MulMono(-1, qx - qy, b);
    }
  }

  /**
   * `((n % l) + l) % l` in JavaScript is the Euclidean remainder of `n`:
   * the idiom the source uses to normalise a possibly negative index.
   */
  lemma NormalizedRem(n: int, l: int)
    requires l > 0
    ensures Rem(Rem(n, l) + l, l) == n % l
  {
    var r := Rem(n, l);
    assert 0 <= r + l;
    assert Rem(r + l, l) == (r + l) % l;
    ModShift(r, 1, l);
    var q := (n - r) / l;
    assert (n - r) % l == 0;
    assert n - r == q * l;
    ModShift(r, q, l);
    assert r + q * l == n;
  }
}

=== FILE: player.dfy ===
/**
 * The music section's playback controller: which track is active, whether
 * it plays, its time and duration, the visualiser frame, and the browser
 * objects behind them (the `Audio` element, the audio-graph source, the
 * analyser, the audio context, the scheduled animation-frame callback and
 * the 50 ms build timeouts) as abstract handles.
 */
module Playback {
  import opened Wrappers
  import Spectrum
  import Sampling

  /** A catalogue entry; only the fields the controller reads. */
  datatype Track = Track(id: int, waveform: seq<real>)

  /** `new Array(32).fill(10)`: the idle shape of every track. */
  function FlatWaveform(): (w: seq<real>)
    ensures |w| == Spectrum.Bars && forall i :: 0 <= i < |w| ==> w[i] == 10.0
  {
    seq(Spectrum.Bars, _ => 10.0)
  }

  /** The section's two tracks. */
  const Catalogue: seq<Track> := [Track(1, FlatWaveform()), Track(2, FlatWaveform())]

  /** `tracks.find(t => t.id === id)` succeeds. */
  predicate HasTrack(id: int) {
    exists k :: 0 <= k < |Catalogue| && Catalogue[k].id == id
  }

  lemma KnownTracks(id: int)
    ensures HasTrack(id) <==> id == 1 || id == 2
  {
    if id == 1 { assert Catalogue[0].id == 1; }
    if id == 2 { assert Catalogue[1].id == 2; }
  }

  /** One `Audio` element: its creation number and the track it was built for. */
  datatype AudioElement = AudioElement(serial: nat, track: int)

  datatype Player = Player(
    mounted: bool,                      // the section is on the page
    activeTrack: Option<int>,
    isPlaying: bool,
    currentTime: real,
    duration: real,
    analysis: Sampling.Analysis,        // `frequencyData` and `lastUpdateTimeRef`
    isDragging: bool,
    audio: Option<AudioElement>,        // `audioRef`
    hasSource: bool,                    // `sourceRef` is set
    hasAnalyser: bool,                  // `analyserRef` is set
    hasContext: bool,                   // `audioContextRef` is set
    loop: Option<Sampling.Config>,      // a scheduled sampling callback and what it captured
    pending: seq<int>,                  // 50 ms builds not yet run, oldest first, by track id
    created: nat,                       // `Audio` elements created so far
    live: set<AudioElement>)            // elements created and not yet paused and released

  /** The state on mount: nothing active, nothing allocated. */
  function Init(): (p: Player)
    ensures p.mounted && p.activeTrack.None? && !p.isPlaying && p.live == {} && p.pending == []
    ensures Spectrum.WellFormedFrame(p.analysis.frame)
  {
    Player(true, None, false, 0.0, 0.0, Sampling.Analysis(Spectrum.Zeros(), 0.0), false,
           None, false, false, false, None, [], 0, {})
  }

  /** The elements an optional handle refers to. */
  function Handle(audio: Option<AudioElement>): set<AudioElement> {
    if audio.None? then {} else {audio.value}
  }

  /** Pause the referenced element, clear its source and drop the reference. */
  function ReleaseAudio(p: Player): (r: Player)
    ensures r.audio.None? && r.live == p.live - Handle(p.audio)
    ensures r.(audio := p.audio, live := p.live) == p
  {
    p.(audio := None, live := p.live - Handle(p.audio))
  }

  /** `stopFrequencyAnalysis`: cancel the scheduled callback and show the silent frame. */
  function StopAnalysis(p: Player): (r: Player)
    ensures r.loop.None? && r.analysis.frame == Spectrum.Zeros()
    ensures r.(loop := p.loop, analysis := p.analysis) == p
  {
    p.(loop := None, analysis := p.analysis.(frame := Spectrum.Zeros()))
  }

  /** `startFrequencyAnalysis`: schedule the sampling callback when an element and an analyser exist. */
  function StartAnalysis(p: Player, env: Sampling.Config): (r: Player)
    ensures p.audio.Some? && p.hasAnalyser ==> r == p.(loop := Some(env))
    ensures p.audio.None? || !p.hasAnalyser ==> r == p
  {
    if p.audio.None? || !p.hasAnalyser then p else p.(loop := Some(env))
  }

  /**
   * `setIsPlaying(v)` followed by the effect that watches `isPlaying`: the
   * effect runs only when the value changes, and only touches the element
   * when one is referenced.
   */
  function SetPlaying(p: Player, v: bool, env: Sampling.Config): (r: Player)
    ensures r.isPlaying == v
    ensures r.(loop := p.loop, analysis := p.analysis, isPlaying := p.isPlaying) == p
    ensures p.isPlaying == v || p.audio.None? ==> r == p.(isPlaying := v)
    ensures p.isPlaying != v && p.audio.Some? && !v ==> r.loop.None? && r.analysis.frame == Spectrum.Zeros()
    ensures p.isPlaying != v && p.audio.Some? && v && p.hasAnalyser ==> r.loop == Some(env)
  {
    var q := p.(isPlaying := v);
    if p.isPlaying == v || p.audio.None? then q
    else if v then StartAnalysis(q, env)
    else StopAnalysis(q)
  }

  /** Fields that only the deferred build and teardown change. */
  predicate SameSession(p: Player, q: Player) {
    && p.mounted == q.mounted
    && p.activeTrack == q.activeTrack
    && p.audio == q.audio && p.live == q.live && p.created == q.created
    && p.hasSource == q.hasSource && p.hasAnalyser == q.hasAnalyser && p.hasContext == q.hasContext
    && p.pending == q.pending
  }

  /**
   * `togglePlay(id)`. An unknown id changes nothing; the active id flips
   * play and pause; any other id tears the current element down and
   * schedules the build of the new one for 50 ms later.
   */
  function TogglePlay(p: Player, id: int, env: Sampling.Config): (r: Player)
    ensures !HasTrack(id) ==> r == p
    ensures HasTrack(id) && p.activeTrack == Some(id) ==>
      r.isPlaying == !p.isPlaying && SameSession(p, r)
      && r.currentTime == p.currentTime && r.duration == p.duration
    ensures HasTrack(id) && p.activeTrack != Some(id) ==>
      && r.audio.None? && r.loop.None? && !r.hasSource
      && !r.isPlaying && r.currentTime == 0.0 && r.duration == 0.0
      && r.analysis.frame == Spectrum.Zeros()
      && r.activeTrack == p.activeTrack
      && r.pending == p.pending + [id]
      && r.live == p.live - Handle(p.audio)
    ensures r.mounted == p.mounted && r.isDragging == p.isDragging && r.created == p.created
    ensures r.hasAnalyser == p.hasAnalyser && r.hasContext == p.hasContext
  {
    if !HasTrack(id) then p
    else if p.activeTrack == Some(id) then SetPlaying(p, !p.isPlaying, env)
    else
      var torn := ReleaseAudio(p).(loop := None, hasSource := false);
      var reset := SetPlaying(torn, false, env);
      reset.(currentTime := 0.0, duration := 0.0,
             analysis := reset.analysis.(frame := Spectrum.Zeros()),
             pending := p.pending + [id])
  }

  /**
   * The oldest 50 ms timeout fires: a context if none exists, a fresh
   * analyser, a new element for the track wired through a new source, and
   * then, if the section is still mounted, the track becomes active and
   * playing. The element is told to play either way.
   */
  function BuildFires(p: Player, env: Sampling.Config): (r: Player)
    ensures p.pending == [] ==> r == p
    ensures p.pending != [] ==>
      && r.pending == p.pending[1..]
      && r.audio == Some(AudioElement(p.created, p.pending[0]))
      && r.live == p.live + {AudioElement(p.created, p.pending[0])}
      && r.created == p.created + 1
      && r.hasSource && r.hasAnalyser && r.hasContext
    ensures r.mounted == p.mounted && r.isDragging == p.isDragging
    ensures r.currentTime == p.currentTime && r.duration == p.duration
    ensures p.pending != [] && p.mounted ==> r.activeTrack == Some(p.pending[0]) && r.isPlaying
    ensures !p.mounted ==> r.activeTrack == p.activeTrack && r.isPlaying == p.isPlaying
  {
    if p.pending == [] then p
    else
      var id := p.pending[0];
      var element := AudioElement(p.created, id);
      var built := p.(pending := p.pending[1..], created := p.created + 1,
                      hasContext := true, hasAnalyser := true, hasSource := true,
                      audio := Some(element), live := p.live + {element});
      if !built.mounted then built
      else SetPlaying(built.(activeTrack := Some(id)), true, env)
  }

  /**
   * The element's `ended` event: playback stops at time 0 with a silent
   * frame and no sampling; the track stays active and nothing else is queued.
   */
  function Ended(p: Player, env: Sampling.Config): (r: Player)
    ensures r.loop.None? && SameSession(p, r)
    ensures p.mounted ==> !r.isPlaying && r.currentTime == 0.0 && r.analysis.frame == Spectrum.Zeros()
    ensures p.mounted ==> r.duration == p.duration
  {
    var stopped := p.(loop := None);
    if !p.mounted then stopped
    else
      SetPlaying(stopped.(currentTime := 0.0, analysis := stopped.analysis.(frame := Spectrum.Zeros())), false, env)
  }

  /** The element's `timeupdate` event. */
  function TimeUpdate(p: Player, time: real): (r: Player)
    ensures p.mounted ==> r == p.(currentTime := time)
    ensures !p.mounted ==> r == p
  {
    if p.mounted then p.(currentTime := time) else p
  }

  /** The element's `loadedmetadata` event. */
  function MetadataLoaded(p: Player, duration: real): (r: Player)
    ensures p.mounted ==> r == p.(duration := duration)
    ensures !p.mounted ==> r == p
  {
    if p.mounted then p.(duration := duration) else p
  }

  /** An animation frame: the scheduled sampling callback, if any, runs. */
  function AnimationFrame(p: Player, timestamp: real, bins: seq<Spectrum.Byte>): (r: Player)
    requires Spectrum.Bars <= |bins|
    ensures r.(analysis := p.analysis) == p
    ensures p.loop.None? ==> r == p
    ensures Spectrum.WellFormedFrame(p.analysis.frame) ==> Spectrum.WellFormedFrame(r.analysis.frame)
  {
    if p.loop.None? then p
    else p.(analysis := Sampling.Tick(p.loop.value, p.analysis, timestamp, bins))
  }

  /** The bar area's bounding box, in pixels. */
  datatype Rect = Rect(left: real, width: real)

  /** `Math.max(lo, Math.min(x, hi))`. */
  function Clamp(x: real, lo: real, hi: real): (c: real)
    requires lo <= hi
    ensures lo <= c <= hi
    ensures lo <= x <= hi ==> c == x
    ensures x <= lo ==> c == lo
    ensures x >= hi ==> c == hi
  {
    if x < lo then lo else if x > hi then hi else x
  }

  /** Whether a seek on this track's bars reaches the element. */
  predicate CanSeek(p: Player, trackId: int) {
    p.activeTrack == Some(trackId) && p.audio.Some?
  }

  /** A click on the bars seeks to the same fraction of the duration; the offset is not clamped. */
  function ProgressClick(p: Player, trackId: int, clientX: real, rect: Rect): (r: Player)
    requires rect.width > 0.0
    ensures !CanSeek(p, trackId) ==> r == p
    ensures CanSeek(p, trackId) ==>
      r == p.(currentTime := r.currentTime)
      && r.currentTime * rect.width == (clientX - rect.left) * p.duration
  {
    if !CanSeek(p, trackId) then p
    else
      var percentage := (clientX - rect.left) / rect.width;
      p.(currentTime := percentage * p.duration)
  }

  /** Moving over the bars while dragging seeks like a click, with the offset clamped to the bars. */
  function ProgressDrag(p: Player, trackId: int, clientX: real, rect: Rect): (r: Player)
    requires rect.width > 0.0
    ensures !p.isDragging || !CanSeek(p, trackId) ==> r == p
    ensures p.isDragging && CanSeek(p, trackId) ==> r == p.(currentTime := r.currentTime)
    ensures p.isDragging && CanSeek(p, trackId) ==>
      r.currentTime * rect.width == Clamp(clientX - rect.left, 0.0, rect.width) * p.duration
    ensures p.isDragging && CanSeek(p, trackId) && p.duration >= 0.0 ==> 0.0 <= r.currentTime <= p.duration
  {
    if !p.isDragging || !CanSeek(p, trackId) then p
    else
      var x := Clamp(clientX - rect.left, 0.0, rect.width);
      var percentage := x / rect.width;
      assert 0.0 <= percentage <= 1.0;
      assert p.duration >= 0.0 ==> 0.0 <= percentage * p.duration <= p.duration by {
        if p.duration >= 0.0 {
          assert p.duration - percentage * p.duration == (1.0 - percentage) * p.duration;
          assert (1.0 - percentage) * p.duration >= 0.0;
        }
      }
      p.(currentTime := percentage * p.duration)
  }

  /** Pressing on the bars starts a drag, but only on the active track. */
  function BarMouseDown(p: Player, trackId: int): (r: Player)
    ensures r.isDragging <==> p.isDragging || p.activeTrack == Some(trackId)
    ensures r.(isDragging := p.isDragging) == p
  {
    if p.activeTrack == Some(trackId) then p.(isDragging := true) else p
  }

  /** Releasing the mouse anywhere in the window ends a drag. */
  function WindowMouseUp(p: Player): (r: Player)
    ensures !r.isDragging && r.(isDragging := p.isDragging) == p
  {
    p.(isDragging := false)
  }

  /**
   * The unmount cleanup as the component writes it: pause and drop the
   * element, close the context, cancel the sampling callback. A build
   * timeout still pending is left to fire.
   */
  function UnmountAsWritten(p: Player): (r: Player)
    ensures !r.mounted && r.audio.None? && !r.hasContext && r.loop.None?
    ensures r.live == p.live - Handle(p.audio) && r.pending == p.pending
    ensures r.(mounted := p.mounted, audio := p.audio, hasContext := p.hasContext, loop := p.loop, live := p.live) == p
  {
    ReleaseAudio(p).(mounted := false, hasContext := false, loop := None)
  }

  /** The unmount cleanup with the pending build timeouts cleared as well. */
  function Unmount(p: Player): (r: Player)
    ensures !r.mounted && r.audio.None? && !r.hasContext && r.loop.None? && r.pending == []
    ensures r.live == p.live - Handle(p.audio)
  {
    UnmountAsWritten(p).(pending := [])
  }
}

=== FILE: player_properties.dfy ===
/**
 * Properties of the playback controller over whole event sequences:
 * what every event preserves, when at most one `Audio` element exists,
 * and the two ways a pending 50 ms build escapes the controller.
 */
module PlayerProperties {
  import opened Wrappers
  import Spectrum
  import Sampling
  import opened Playback

  /** Everything that can happen to the music section. */
  datatype Event =
    | Toggle(id: int, env: Sampling.Config)                 // the play/pause button of a track
    | Build(env: Sampling.Config)                           // the oldest 50 ms timeout fires
    | MediaEnded(env: Sampling.Config)                      // an element's `ended`
    | MediaTime(time: real)                                 // an element's `timeupdate`
    | MediaMetadata(duration: real)                         // an element's `loadedmetadata`
    | Frame(timestamp: real, bins: seq<Spectrum.Byte>)      // an animation frame
    | Click(track: int, clientX: real, rect: Rect)          // a click on a track's bars
    | Drag(track: int, clientX: real, rect: Rect)           // mouse movement over a track's bars
    | MouseDown(track: int)                                 // a press on a track's bars
    | MouseUp                                               // a release anywhere in the window
    | Teardown                                              // the section unmounts, with the cleanup as written

  predicate WellFormed(e: Event) {
    match e
    case Frame(_, bins) => Spectrum.Bars <= |bins|
    case Click(_, _, rect) => rect.width > 0.0
    case Drag(_, _, rect) => rect.width > 0.0
    case _ => true
  }

  /** Events that come from the section's own DOM handlers. */
  predicate FromPage(e: Event) {
    e.Toggle? || e.Click? || e.Drag? || e.MouseDown? || e.MouseUp?
  }

  /** One event. The page's handlers go with the DOM on unmount; timers and media events do not. */
  function Step(p: Player, e: Event): (r: Player)
    requires WellFormed(e)
    ensures FromPage(e) && !p.mounted ==> r == p
    ensures e.Build? ==> r == BuildFires(p, e.env)
    ensures e.MediaEnded? ==> r == Ended(p, e.env)
    ensures e.Teardown? ==> r == UnmountAsWritten(p)
  {
    if FromPage(e) && !p.mounted then p
    else
      match e
      case Toggle(id, env) => TogglePlay(p, id, env)
      case Build(env) => BuildFires(p, env)
      case MediaEnded(env) => Ended(p, env)
      case MediaTime(t) => TimeUpdate(p, t)
      case MediaMetadata(d) => MetadataLoaded(p, d)
      case Frame(t, bins) => AnimationFrame(p, t, bins)
      case Click(id, x, rect) => ProgressClick(p, id, x, rect)
      case Drag(id, x, rect) => ProgressDrag(p, id, x, rect)
      case MouseDown(id) => BarMouseDown(p, id)
      case MouseUp => WindowMouseUp(p)
      case Teardown => UnmountAsWritten(p)
  }

  predicate AllWellFormed(es: seq<Event>) {
    forall k :: 0 <= k < |es| ==> WellFormed(es[k])
  }

  function Run(p: Player, es: seq<Event>): Player
    requires AllWellFormed(es)
    decreases |es|
  {
    if |es| == 0 then p else Run(Step(p, es[0]), es[1..])
  }

  /**
   * What holds in every state: a well-formed frame; a sampling callback
   * only while mounted, playing and holding an element; a referenced
   * element always comes with its source, analyser and context; element
   * numbers are fresh; only catalogue tracks are queued or active.
   */
  predicate Consistent(p: Player) {
    && Spectrum.WellFormedFrame(p.analysis.frame)
    && (p.loop.Some? ==> p.mounted && p.isPlaying && p.audio.Some?)
    && (p.audio.Some? ==> p.hasSource && p.hasAnalyser && p.hasContext && p.audio.value in p.live)
    && (forall a :: a in p.live ==> a.serial < p.created)
    && (forall k :: 0 <= k < |p.pending| ==> HasTrack(p.pending[k]))
    && (p.activeTrack.Some? ==> HasTrack(p.activeTrack.value))
  }

  lemma InitConsistent()
    ensures Consistent(Init())
  {
  }

  lemma StepConsistent(p: Player, e: Event)
    requires WellFormed(e) && Consistent(p)
    ensures Consistent(Step(p, e))
  {
    if !(FromPage(e) && !p.mounted) {
      match e
      case Toggle(id, env) =>
        assert Step(p, e) == TogglePlay(p, id, env);
        ToggleConsistent(p, id, env);
      case Build(env) =>
        assert Step(p, e) == BuildFires(p, env);
        BuildConsistent(p, env);
      case MediaEnded(env) =>
        assert Step(p, e) == Ended(p, env);
        EndedConsistent(p, env);
      case MediaTime(t) => assert Step(p, e) == TimeUpdate(p, t);
      case MediaMetadata(d) => assert Step(p, e) == MetadataLoaded(p, d);
      case Frame(t, bins) =>
        assert Step(p, e) == AnimationFrame(p, t, bins);
        FrameConsistent(p, t, bins);
      case Click(id, x, rect) => assert Step(p, e) == ProgressClick(p, id, x, rect);
      case Drag(id, x, rect) => assert Step(p, e) == ProgressDrag(p, id, x, rect);
      case MouseDown(id) => assert Step(p, e) == BarMouseDown(p, id);
      case MouseUp => assert Step(p, e) == WindowMouseUp(p);
      case Teardown =>
        assert Step(p, e) == UnmountAsWritten(p);
        TeardownConsistent(p);
    }
  }

  lemma ToggleConsistent(p: Player, id: int, env: Sampling.Config)
    requires Consistent(p) && p.mounted
    ensures Consistent(TogglePlay(p, id, env))
  {
  }

  lemma BuildConsistent(p: Player, env: Sampling.Config)
    requires Consistent(p)
    ensures Consistent(BuildFires(p, env))
  {
    if p.pending != [] {
      assert HasTrack(p.pending[0]);
      var q := BuildFires(p, env);
      assert forall k :: 0 <= k < |q.pending| ==> q.pending[k] == p.pending[k + 1];
    }
  }

  lemma EndedConsistent(p: Player, env: Sampling.Config)
    requires Consistent(p)
    ensures Consistent(Ended(p, env))
  {
  }

  lemma FrameConsistent(p: Player, t: real, bins: seq<Spectrum.Byte>)
    requires Consistent(p) && Spectrum.Bars <= |bins|
    ensures Consistent(AnimationFrame(p, t, bins))
  {
  }

  lemma TeardownConsistent(p: Player)
    requires Consistent(p)
    ensures Consistent(UnmountAsWritten(p))
  {
    assert UnmountAsWritten(p).live <= p.live;
  }

  /** No sequence of events starts a sampling loop while paused, or leaves one running after unmount. */
  lemma {:induction false} RunConsistent(p: Player, es: seq<Event>)
    requires AllWellFormed(es) && Consistent(p)
    ensures Consistent(Run(p, es))
    decreases |es|
  {
    if |es| > 0 {
      StepConsistent(p, es[0]);
      RunConsistent(Step(p, es[0]), es[1..]);
    }
  }

  /** Only the deferred build ever changes which track is active. */
  lemma OnlyBuildActivates(p: Player, e: Event)
    requires WellFormed(e) && !e.Build?
    ensures Step(p, e).activeTrack == p.activeTrack
  {
    if !(FromPage(e) && !p.mounted) {
      match e
      case Toggle(id, env) => assert Step(p, e) == TogglePlay(p, id, env);
      case MediaEnded(env) => assert Step(p, e) == Ended(p, env);
      case MediaTime(t) => assert Step(p, e) == TimeUpdate(p, t);
      case MediaMetadata(d) => assert Step(p, e) == MetadataLoaded(p, d);
      case Frame(t, bins) => assert Step(p, e) == AnimationFrame(p, t, bins);
      case Click(id, x, rect) => assert Step(p, e) == ProgressClick(p, id, x, rect);
      case Drag(id, x, rect) => assert Step(p, e) == ProgressDrag(p, id, x, rect);
      case MouseDown(id) => assert Step(p, e) == BarMouseDown(p, id);
      case MouseUp => assert Step(p, e) == WindowMouseUp(p);
      case Teardown => assert Step(p, e) == UnmountAsWritten(p);
    }
  }

  /** The build makes its track active and playing while the section is mounted. */
  lemma BuildActivates(p: Player, env: Sampling.Config)
    requires p.mounted && p.pending != []
    ensures Step(p, Build(env)).activeTrack == Some(p.pending[0])
    ensures Step(p, Build(env)).isPlaying
    ensures Step(p, Build(env)).audio == Some(AudioElement(p.created, p.pending[0]))
  {
  }

  /**
   * Pressing play/pause twice on the active track gives back the same
   * element, session, time and play state; the first press of a playing
   * track pauses it and stops the sampling loop.
   */
  lemma ToggleTwice(p: Player, env: Sampling.Config)
    requires Consistent(p) && p.mounted && p.activeTrack.Some?
    ensures var q := Step(p, Toggle(p.activeTrack.value, env));
      && q.isPlaying == !p.isPlaying
      && (p.isPlaying ==> q.loop.None?)
    ensures var r := Step(Step(p, Toggle(p.activeTrack.value, env)), Toggle(p.activeTrack.value, env));
      && SameSession(p, r)
      && r.isPlaying == p.isPlaying
      && r.currentTime == p.currentTime && r.duration == p.duration
  {
  }

  // ----- One element at a time -----

  /** The only live element, if any, is the referenced one. */
  predicate Exclusive(p: Player) {
    p.live <= Handle(p.audio)
  }

  /** At most one build queued; while one is, no element is live. */
  predicate Disciplined(p: Player) {
    && |p.pending| <= 1
    && (|p.pending| == 1 ==> p.live == {} && p.audio.None?)
    && (p.pending == [] ==> Exclusive(p))
  }

  /** A switch to another track is only issued once the previous build has run. */
  predicate Patient(p: Player, e: Event) {
    e.Toggle? && p.mounted && HasTrack(e.id) && p.activeTrack != Some(e.id) ==> p.pending == []
  }

  lemma StepDisciplined(p: Player, e: Event)
    requires WellFormed(e) && Disciplined(p) && Patient(p, e)
    ensures Disciplined(Step(p, e))
  {
  }

  predicate PatientRun(p: Player, es: seq<Event>)
    requires AllWellFormed(es)
    decreases |es|
  {
    |es| == 0 || (Patient(p, es[0]) && PatientRun(Step(p, es[0]), es[1..]))
  }

  lemma {:induction false} RunDisciplined(p: Player, es: seq<Event>)
    requires AllWellFormed(es) && Disciplined(p) && PatientRun(p, es)
    ensures Disciplined(Run(p, es))
    decreases |es|
  {
    if |es| > 0 {
      StepDisciplined(p, es[0]);
      RunDisciplined(Step(p, es[0]), es[1..]);
    }
  }

  /**
   * Exclusivity: after any run from mount in which no track switch is
   * issued while a build is pending, a state with no build pending holds
   * at most one live element, and it is the referenced one.
   */
  lemma SingleElementWhenSettled(es: seq<Event>)
    requires AllWellFormed(es) && PatientRun(Init(), es)
    ensures var p := Run(Init(), es);
      p.pending == [] ==> |p.live| <= 1 && p.live <= Handle(p.audio)
  {
    RunDisciplined(Init(), es);
    var p := Run(Init(), es);
    if p.pending == [] {
      assert p.live <= Handle(p.audio);
      SubsetSize(p.live, Handle(p.audio));
    }
  }

  lemma SubsetSize<T>(a: set<T>, b: set<T>)
    requires a <= b
    ensures |a| <= |b|
  {
    assert b == a + (b - a);
  }

  /**
   * Without that discipline exclusivity fails: two switches issued inside
   * the 50 ms window leave two live elements once both builds have run,
   * the first one never paused.
   */
  lemma QuickSwitchesLeaveTwoElements(env: Sampling.Config)
    ensures var p := Run(Init(), [Toggle(1, env), Toggle(2, env), Build(env), Build(env)]);
      && p.pending == []
      && p.live == {AudioElement(0, 1), AudioElement(1, 2)}
      && p.audio == Some(AudioElement(1, 2))
  {
    KnownTracks(1);
    KnownTracks(2);
    var es := [Toggle(1, env), Toggle(2, env), Build(env), Build(env)];
    var p1 := Step(Init(), es[0]);
    assert p1.pending == [1] && p1.live == {} && p1.activeTrack.None?;
    var p2 := Step(p1, es[1]);
    assert p2.pending == [1, 2] && p2.live == {};
    var p3 := Step(p2, es[2]);
    assert p3.pending == [2] && p3.live == {AudioElement(0, 1)};
    var p4 := Step(p3, es[3]);
    assert p4.live == {AudioElement(0, 1), AudioElement(1, 2)};
    assert Run(p3, es[3..]) == p4 by {
      assert es[3..][1..] == [];
    }
    assert es[2..][1..] == es[3..];
    assert es[1..][1..] == es[2..];
    assert Run(p2, es[2..]) == p4;
    assert Run(p1, es[1..]) == p4;
  }

  // ----- Unmount -----

  /**
   * The cleanup as written leaves the 50 ms timeout pending: pressing play
   * and unmounting within 50 ms still builds an element and plays it, on
   * a page that no longer shows the section and with nothing left to stop it.
   */
  lemma UnmountLeavesBuildPending(env: Sampling.Config)
    ensures var p := Run(Init(), [Toggle(1, env), Teardown, Build(env)]);
      && !p.mounted
      && p.live == {AudioElement(0, 1)}
      && p.audio == Some(AudioElement(0, 1))
  {
    KnownTracks(1);
    var es := [Toggle(1, env), Teardown, Build(env)];
    var p1 := Step(Init(), es[0]);
    assert p1.pending == [1] && p1.live == {};
    var p2 := Step(p1, es[1]);
    assert p2.pending == [1] && !p2.mounted && p2.live == {};
    var p3 := Step(p2, es[2]);
    assert p3.live == {AudioElement(0, 1)};
    assert Run(p2, es[2..]) == p3 by {
      assert es[2..][1..] == [];
    }
    assert es[1..][1..] == es[2..];
    assert Run(p1, es[1..]) == p3;
  }

  /** After unmount: nothing live, nothing queued, nothing sampling. */
  predicate Quiet(p: Player) {
    !p.mounted && p.pending == [] && p.live == {} && p.loop.None? && p.audio.None?
  }

  lemma StepQuiet(p: Player, e: Event)
    requires WellFormed(e) && Quiet(p)
    ensures Quiet(Step(p, e))
  {
  }

  /**
   * With the pending build cleared on unmount, a disciplined controller
   * stays silent after unmount whatever timers and media events follow.
   */
  lemma {:induction false} UnmountSilencesForever(p: Player, es: seq<Event>)
    requires AllWellFormed(es) && Disciplined(p)
    ensures Quiet(Run(Unmount(p), es))
  {
    QuietRun(Unmount(p), es);
  }

  lemma {:induction false} QuietRun(p: Player, es: seq<Event>)
    requires AllWellFormed(es) && Quiet(p)
    ensures Quiet(Run(p, es))
    decreases |es|
  {
    if |es| > 0 {
      StepQuiet(p, es[0]);
      QuietRun(Step(p, es[0]), es[1..]);
    }
  }
}

=== FILE: project_selection.dfy ===
/**
 * Which project the portfolio's detail view shows, and the direction the
 * view slides in from: -1 from the left, 1 from the right, 0 without a slide.
 */
module ProjectSelection {
  import opened Wrappers
  import JsArith

  /** The number of entries in the portfolio's project catalogue. */
  const ProjectCount: nat := 18

  /** `selectedProjectIndex` (`None` when the detail view is closed) and `projectDirection`. */
  datatype Selection = Selection(selected: Option<nat>, direction: int)

  /** The keys the open detail view listens for; every other key is `OtherKey`. */
  datatype Key = ArrowLeft | ArrowRight | Escape | OtherKey

  predicate Valid(s: Selection, total: nat) {
    && (s.selected.Some? ==> s.selected.value < total)
    && s.direction in {-1, 0, 1}
  }

  /** Nothing is selected at first and the direction starts at 1. */
  function Initial(): (s: Selection)
    ensures Valid(s, ProjectCount) && s.selected.None?
  {
    Selection(None, 1)
  }

  /** `(prev - 1 + total) % total`, with JavaScript's remainder. */
  function PreviousIndex(i: nat, total: nat): (r: nat)
    requires total > 0
    ensures r < total
    ensures r == (i - 1) % total
  {
    JsArith.ModShift(i - 1, 1, total);
    JsArith.Rem(i - 1 + total, total)
  }

  /** `(prev + 1) % total`. */
  function NextIndex(i: nat, total: nat): (r: nat)
    requires total > 0
    ensures r < total
    ensures r == (i + 1) % total
  {
    JsArith.Rem(i + 1, total)
  }

  /** The previous-project button: the direction becomes -1 and a closed view stays closed. */
  function PreviousProject(s: Selection, total: nat): (r: Selection)
    requires total > 0
    ensures r.direction == -1
    ensures r.selected.Some? <==> s.selected.Some?
    ensures s.selected.Some? ==> r.selected.value == (s.selected.value - 1) % total
  {
    Selection(if s.selected.None? then None else Some(PreviousIndex(s.selected.value, total)), -1)
  }

  /** The next-project button: the direction becomes 1 and a closed view stays closed. */
  function NextProject(s: Selection, total: nat): (r: Selection)
    requires total > 0
    ensures r.direction == 1
    ensures r.selected.Some? <==> s.selected.Some?
    ensures s.selected.Some? ==> r.selected.value == (s.selected.value + 1) % total
  {
    Selection(if s.selected.None? then None else Some(NextIndex(s.selected.value, total)), 1)
  }

  /** The close button and a click on the backdrop: the view closes, the direction stays. */
  function Close(s: Selection): (r: Selection)
    ensures r.selected.None? && r.direction == s.direction
  {
    s.(selected := None)
  }

  /** Choosing a thumbnail opens that project without a slide. */
  function SelectThumbnail(s: Selection, k: nat): (r: Selection)
    ensures r.selected == Some(k) && r.direction == 0
  {
    Selection(Some(k), 0)
  }

  /**
   * Choosing a dot opens that project; when a project was already open the
   * view slides from the right for a later or equal index and from the
   * left for an earlier one.
   */
  function SelectDot(s: Selection, k: nat): (r: Selection)
    ensures r.selected == Some(k)
    ensures s.selected.None? ==> r.direction == s.direction
    ensures s.selected.Some? ==> (r.direction == 1 <==> k >= s.selected.value)
    ensures s.selected.Some? ==> (r.direction == -1 <==> k < s.selected.value)
  {
    match s.selected
    case None => s.(selected := Some(k))
    case Some(prev) => Selection(Some(k), if k - prev >= 0 then 1 else -1)
  }

  /**
   * A key press. The listener is only installed while a project is open,
   * so with the view closed every key is ignored.
   */
  function KeyDown(s: Selection, key: Key, total: nat): (r: Selection)
    requires total > 0
    ensures s.selected.None? || key == OtherKey ==> r == s
  {
    if s.selected.None? then s
    else
      match key
      case ArrowLeft => PreviousProject(s, total)
      case ArrowRight => NextProject(s, total)
      case Escape => Close(s)
      case OtherKey => s
  }

  /** Every transition keeps the selection inside the catalogue and the direction in {-1, 0, 1}. */
  lemma TransitionsPreserveValid(s: Selection, total: nat, key: Key, k: nat)
    requires total > 0 && Valid(s, total) && k < total
    ensures Valid(PreviousProject(s, total), total)
    ensures Valid(NextProject(s, total), total)
    ensures Valid(Close(s), total)
    ensures Valid(SelectThumbnail(s, k), total)
    ensures Valid(SelectDot(s, k), total)
    ensures Valid(KeyDown(s, key, total), total)
  {
  }

  /** Next undoes previous and previous undoes next, for an open or a closed view. */
  lemma PreviousNextInverse(s: Selection, total: nat)
    requires total > 0 && Valid(s, total)
    ensures NextProject(PreviousProject(s, total), total).selected == s.selected
    ensures PreviousProject(NextProject(s, total), total).selected == s.selected
  {
    if s.selected.Some? {
      var i: int := s.selected.value;
      JsArith.ModAdd(i - 1, 1, total);
      JsArith.ModAdd(i + 1, -1, total);
      JsArith.ModUnique(i, total, 0, i);
    }
  }

  /** The arrow keys act exactly as the previous and next buttons, Escape as close. */
  lemma KeysMatchButtons(s: Selection, total: nat)
    requires total > 0 && s.selected.Some?
    ensures KeyDown(s, ArrowLeft, total) == PreviousProject(s, total)
    ensures KeyDown(s, ArrowRight, total) == NextProject(s, total)
    ensures KeyDown(s, Escape, total) == Close(s)
  {
  }

  /** Stepping `total` times forwards from an open project returns to it. */
  lemma NextCycles(s: Selection, total: nat, k: nat)
    requires total > 0 && Valid(s, total) && s.selected.Some?
    ensures NextTimes(s, total, k).selected == Some((s.selected.value + k) % total)
    ensures NextTimes(s, total, total).selected == s.selected
  {
    NextTimesIndex(s, total, k);
    NextTimesIndex(s, total, total);
    JsArith.ModUnique(s.selected.value + total, total, 1, s.selected.value);
  }

  /** `k` presses of the next button. */
  function NextTimes(s: Selection, total: nat, k: nat): (r: Selection)
    requires total > 0
    ensures r.selected.Some? <==> s.selected.Some?
  {
    if k == 0 then s else NextProject(NextTimes(s, total, k - 1), total)
  }

  lemma {:induction false} NextTimesIndex(s: Selection, total: nat, k: nat)
    requires total > 0 && Valid(s, total) && s.selected.Some?
    ensures NextTimes(s, total, k).selected == Some((s.selected.value + k) % total)
  {
    if k == 0 {
      JsArith.ModUnique(s.selected.value, total, 0, s.selected.value);
    } else {
      var prev := NextTimes(s, total, k - 1);
      var j := s.selected.value + k - 1;
      NextTimesIndex(s, total, k - 1);
      assert prev.selected == Some(j % total);
      var next := NextProject(prev, total);
      assert next.selected == Some((j % total + 1) % total);
      JsArith.ModAdd(j, 1, total);
      assert j + 1 == s.selected.value + k;
      assert NextTimes(s, total, k) == next;
    }
  }
}

=== FILE: rotation.dfy ===
/**
 * The generic `rotate` helper of the portfolio section: the sequence read
 * from a normalised offset onwards and wrapped round. The helper is
 * defined but never called by the component.
 */
module Rotation {
  import JsArith

  /** `((n % l) + l) % l` evaluated with JavaScript's remainder. */
  function Offset(n: int, l: int): (o: int)
    requires l > 0
    ensures 0 <= o < l
    ensures o == n % l
  {
    JsArith.NormalizedRem(n, l);
    JsArith.Rem(JsArith.Rem(n, l) + l, l)
  }

  /**
   * `rotate(arr, n)`. For an empty array JavaScript computes a NaN offset,
   * and `slice(NaN)` reads it as 0, so the result is empty.
   */
  function Rotate<T>(arr: seq<T>, n: int): (r: seq<T>)
    ensures |r| == |arr|
    ensures |arr| > 0 ==> forall k :: 0 <= k < |r| ==> r[k] == arr[(k + n) % |arr|]
  {
    if |arr| == 0 then []
    else
      var l := |arr|;
      var o := Offset(n, l);
      var r := arr[o..] + arr[..o];
      assert forall k :: 0 <= k < l ==> r[k] == arr[(k + n) % l] by {
        forall k | 0 <= k < l
          ensures r[k] == arr[(k + n) % l]
        {
          JsArith.ModAdd(n, k, l);
          if k < l - o {
            JsArith.ModUnique(k + o, l, 0, k + o);
          } else {
            JsArith.ModUnique(k + o, l, 1, k + o - l);
          }
        }
      }
      r
  }

  /** One element of a rotation, as its own fact. */
  lemma RotateAt<T>(arr: seq<T>, n: int, k: int)
    requires 0 <= k < |arr|
    ensures Rotate(arr, n)[k] == arr[(k + n) % |arr|]
  {
  }

  /** Rotating twice is rotating by the sum of the amounts. */
  lemma RotateCompose<T>(arr: seq<T>, m: int, n: int)
    ensures Rotate(Rotate(arr, m), n) == Rotate(arr, m + n)
  {
    var l := |arr|;
    if l > 0 {
      var a, b := Rotate(Rotate(arr, m), n), Rotate(arr, m + n);
      forall k | 0 <= k < l
        ensures a[k] == b[k]
      {
        RotateComposeAt(arr, m, n, k);
      }
    }
  }

  lemma RotateComposeAt<T>(arr: seq<T>, m: int, n: int, k: int)
    requires 0 <= k < |arr|
    ensures Rotate(Rotate(arr, m), n)[k] == Rotate(arr, m + n)[k]
  {
    var l := |arr|;
    var once := Rotate(arr, m);
    var j := (k + n) % l;
    RotateAt(once, n, k);
    assert Rotate(once, n)[k] == once[j];
    RotateAt(arr, m, j);
    assert once[j] == arr[(j + m) % l];
    assert (j + m) % l == (k + (m + n)) % l by {
      JsArith.ModAdd(k + n, m, l);
      assert k + n + m == k + (m + n);
    }
    RotateAt(arr, m + n, k);
  }

  /** Rotating by a multiple of the length, zero included, changes nothing. */
  lemma RotateByLength<T>(arr: seq<T>, k: int)
    ensures Rotate(arr, k * |arr|) == arr
  {
    var l := |arr|;
    if l > 0 {
      var r := Rotate(arr, k * l);
      forall i | 0 <= i < l
        ensures r[i] == arr[i]
      {
        JsArith.ModShift(i, k, l);
        JsArith.ModUnique(i, l, 0, i);
      }
    }
  }

  /** Rotating by `-n` undoes rotating by `n`. */
  lemma RotateInverse<T>(arr: seq<T>, n: int)
    ensures Rotate(Rotate(arr, n), -n) == arr
  {
    var l := |arr|;
    if l > 0 {
      var once := Rotate(arr, n);
      var back := Rotate(once, -n);
      forall k | 0 <= k < l
        ensures back[k] == arr[k]
      {
        var j := (k + -n) % l;
        assert back[k] == once[j];
        assert once[j] == arr[(j + n) % l];
        JsArith.ModAdd(k + -n, n, l);
        JsArith.ModUnique(k, l, 0, k);
      }
    }
  }
}

=== FILE: sampling.dfy ===
/**
 * The animation-frame callback that refreshes the visualiser: a frame of
 * zeros when the section is hidden or the device is low-powered, and
 * otherwise a new frame at most once per update interval.
 */
module Sampling {
  import Spectrum

  /** `BASE_UPDATE_INTERVAL`, in milliseconds. */
  const BaseUpdateInterval: real := 50.0

  /** The interval chosen for low-power devices, in milliseconds. */
  const LowPowerUpdateInterval: real := 200.0

  /** The visibility and device class the loop saw when it was started. */
  datatype Config = Config(visible: bool, lowPower: bool)

  /** The frame on screen and the time of the last refresh (`lastUpdateTimeRef`). */
  datatype Analysis = Analysis(frame: seq<real>, lastUpdate: real)

  /** `UPDATE_INTERVAL`: never shorter than the base interval, and longer exactly on low-power devices. */
  function UpdateInterval(cfg: Config): (interval: real)
    ensures BaseUpdateInterval <= interval
    ensures interval == BaseUpdateInterval <==> !cfg.lowPower
  {
    if cfg.lowPower then LowPowerUpdateInterval else BaseUpdateInterval
  }

  /** What one callback does. */
  datatype Outcome = Silenced | Throttled | Sampled

  /**
   * Which branch of the callback runs. The low-power test comes first, so
   * only the base interval ever decides between throttling and sampling.
   */
  function Decide(cfg: Config, a: Analysis, timestamp: real): (o: Outcome)
    ensures o == Silenced <==> !cfg.visible || cfg.lowPower
    ensures o == Sampled <==> cfg.visible && !cfg.lowPower && timestamp - a.lastUpdate >= BaseUpdateInterval
  {
    if !cfg.visible || cfg.lowPower then Silenced
    else if timestamp - a.lastUpdate < UpdateInterval(cfg) then Throttled
    else Sampled
  }

  /** One run of `updateFrequencies(timestamp)`. */
  function Tick(cfg: Config, a: Analysis, timestamp: real, bins: seq<Spectrum.Byte>): (r: Analysis)
    requires Spectrum.Bars <= |bins|
    ensures Spectrum.WellFormedFrame(a.frame) ==> Spectrum.WellFormedFrame(r.frame)
    ensures r.lastUpdate != a.lastUpdate ==> r.lastUpdate - a.lastUpdate >= BaseUpdateInterval && r.lastUpdate == timestamp
    ensures r.lastUpdate != a.lastUpdate ==> r.frame == Spectrum.Frame(bins)
    ensures !cfg.visible ==> r.frame == Spectrum.Zeros() && r.lastUpdate == a.lastUpdate
    ensures Decide(cfg, a, timestamp) == Sampled ==> r == Analysis(Spectrum.Frame(bins), timestamp)
    ensures Decide(cfg, a, timestamp) == Throttled ==> r == a
    ensures Decide(cfg, a, timestamp) == Silenced ==> r == a.(frame := Spectrum.Zeros())
  {
    match Decide(cfg, a, timestamp)
    case Silenced => a.(frame := Spectrum.Zeros())
    case Throttled => a
    case Sampled => Analysis(Spectrum.Frame(bins), timestamp)
  }

  /**
   * A low-power device never samples: its frame is pinned to zeros before
   * the throttle is consulted, so the 200 ms interval is never used.
   */
  lemma LowPowerNeverSamples(cfg: Config, a: Analysis, timestamp: real, bins: seq<Spectrum.Byte>)
    requires Spectrum.Bars <= |bins| && cfg.lowPower
    ensures Tick(cfg, a, timestamp, bins) == a.(frame := Spectrum.Zeros())
  {
  }

  /** A refresh happens exactly when the section is visible, the device is not low-powered and 50 ms have passed. */
  lemma SamplesExactlyWhenDue(cfg: Config, a: Analysis, timestamp: real, bins: seq<Spectrum.Byte>)
    requires Spectrum.Bars <= |bins|
    ensures Decide(cfg, a, timestamp) == Sampled <==>
      cfg.visible && !cfg.lowPower && timestamp - a.lastUpdate >= BaseUpdateInterval
    ensures Decide(cfg, a, timestamp) == Throttled ==> Tick(cfg, a, timestamp, bins) == a
  {
  }

  /** The callback's arguments on one animation frame. */
  datatype FrameTick = FrameTick(timestamp: real, bins: seq<Spectrum.Byte>)

  predicate WellFormedTicks(ticks: seq<FrameTick>) {
    forall k :: 0 <= k < |ticks| ==> Spectrum.Bars <= |ticks[k].bins|
  }

  /** The analysis after a run of callbacks. */
  function Run(cfg: Config, a: Analysis, ticks: seq<FrameTick>): Analysis
    requires WellFormedTicks(ticks)
    decreases |ticks|
  {
    if |ticks| == 0 then a
    else Run(cfg, Tick(cfg, a, ticks[0].timestamp, ticks[0].bins), ticks[1..])
  }

  /** How many of those callbacks refreshed the frame. */
  function SampleCount(cfg: Config, a: Analysis, ticks: seq<FrameTick>): nat
    requires WellFormedTicks(ticks)
    decreases |ticks|
  {
    if |ticks| == 0 then 0
    else
      var next := Tick(cfg, a, ticks[0].timestamp, ticks[0].bins);
      (if Decide(cfg, a, ticks[0].timestamp) == Sampled then 1 else 0)
        + SampleCount(cfg, next, ticks[1..])
  }

  /** Each refresh moves the last-update time on by at least 50 ms. */
  lemma {:induction false} RefreshesAreSpaced(cfg: Config, a: Analysis, ticks: seq<FrameTick>)
    requires WellFormedTicks(ticks)
    ensures SampleCount(cfg, a, ticks) as real * BaseUpdateInterval <= Run(cfg, a, ticks).lastUpdate - a.lastUpdate
    decreases |ticks|
  {
    if |ticks| > 0 {
      var next := Tick(cfg, a, ticks[0].timestamp, ticks[0].bins);
      RefreshesAreSpaced(cfg, next, ticks[1..]);
    }
  }

  /** The last-update time never passes a bound that the initial time and every callback's timestamp respect. */
  lemma {:induction false} LastUpdateIsSeen(cfg: Config, a: Analysis, ticks: seq<FrameTick>, until: real)
    requires WellFormedTicks(ticks)
    requires a.lastUpdate <= until && forall k :: 0 <= k < |ticks| ==> ticks[k].timestamp <= until
    ensures Run(cfg, a, ticks).lastUpdate <= until
    decreases |ticks|
  {
    if |ticks| > 0 {
      var next := Tick(cfg, a, ticks[0].timestamp, ticks[0].bins);
      LastUpdateIsSeen(cfg, next, ticks[1..], until);
    }
  }

  /**
   * The throttle bound measured from the last sample: callbacks stamped no
   * later than `until` refresh the frame at most `(until - lastUpdate) / 50`
   * times, whatever their rate.
   */
  lemma ThrottleBound(cfg: Config, a: Analysis, ticks: seq<FrameTick>, until: real)
    requires WellFormedTicks(ticks)
    requires a.lastUpdate <= until && forall k :: 0 <= k < |ticks| ==> ticks[k].timestamp <= until
    ensures SampleCount(cfg, a, ticks) as real * BaseUpdateInterval <= until - a.lastUpdate
  {
    RefreshesAreSpaced(cfg, a, ticks);
    LastUpdateIsSeen(cfg, a, ticks, until);
  }

  /**
   * The throttle bound over any window: callbacks all stamped within a
   * window of length `T` refresh the frame at most `T / 50 + 1` times,
   * whenever the previous sample was taken.
   */
  lemma {:induction false} WindowBound(cfg: Config, a: Analysis, ticks: seq<FrameTick>, t0: real, T: real)
    requires WellFormedTicks(ticks) && 0.0 <= T
    requires forall k :: 0 <= k < |ticks| ==> t0 <= ticks[k].timestamp <= t0 + T
    ensures SampleCount(cfg, a, ticks) as real * BaseUpdateInterval <= T + BaseUpdateInterval
    decreases |ticks|
  {
    if |ticks| > 0 {
      var next := Tick(cfg, a, ticks[0].timestamp, ticks[0].bins);
      var rest := ticks[1..];
      assert forall k :: 0 <= k < |rest| ==> rest[k] == ticks[k + 1];
      if Decide(cfg, a, ticks[0].timestamp) == Sampled {
        assert next.lastUpdate == ticks[0].timestamp;
        ThrottleBound(cfg, next, rest, t0 + T);
      } else {
        WindowBound(cfg, next, rest, t0, T);
      }
    }
  }
}

=== FILE: scrubber.dfy ===
/**
 * What each track card shows from the controller's state: how far the
 * progress fill has reached across the 32 bars, how tall each bar is,
 * and how a click or a drag on the bars maps back to a playback time.
 */
module Scrubber {
  import opened Wrappers
  import Spectrum
  import opened Playback

  /** Fraction of the track played, 0 for every card but the active one or before the duration is known. */
  function TrackProgress(p: Player, id: int): (progress: real)
    ensures !(p.activeTrack == Some(id) && p.duration > 0.0) ==> progress == 0.0
    ensures p.activeTrack == Some(id) && p.duration > 0.0 ==> progress * p.duration == p.currentTime
    ensures p.activeTrack == Some(id) && 0.0 <= p.currentTime <= p.duration ==> 0.0 <= progress <= 1.0
  {
    if p.activeTrack == Some(id) && p.duration > 0.0 then
      var progress := p.currentTime / p.duration;
      assert progress * p.duration == p.currentTime;
      assert p.duration - p.currentTime == (1.0 - progress) * p.duration;
      progress
    else 0.0
  }

  /** Bar `i` of `n` is drawn as played when its left edge, as a fraction, is at most the progress. */
  predicate IsPast(active: bool, i: nat, progress: real) {
    active && (i as real) / (Spectrum.Bars as real) <= progress
  }

  /** The played/unplayed flag of each of the 32 bars of a card. */
  function PastFlags(active: bool, progress: real): (flags: seq<bool>)
    ensures |flags| == Spectrum.Bars
    ensures forall i :: 0 <= i < |flags| ==> (flags[i] <==> active && i as real <= progress * Spectrum.Bars as real)
  {
    seq(Spectrum.Bars, i requires 0 <= i => IsPast(active, i, progress))
  }

  function CountTrue(flags: seq<bool>): (n: nat)
    ensures n <= |flags|
  {
    if |flags| == 0 then 0 else (if flags[0] then 1 else 0) + CountTrue(flags[1..])
  }

  /** A run of `m` set flags followed by clear ones counts `m`. */
  lemma {:induction false} CountPrefix(flags: seq<bool>, m: nat)
    requires m <= |flags|
    requires forall i :: 0 <= i < |flags| ==> (flags[i] <==> i < m)
    ensures CountTrue(flags) == m
  {
    if |flags| > 0 {
      var rest := flags[1..];
      if m > 0 {
        assert forall i :: 0 <= i < |rest| ==> (rest[i] <==> i < m - 1) by {
          forall i | 0 <= i < |rest| ensures rest[i] <==> i < m - 1 {
            assert rest[i] == flags[i + 1];
          }
        }
        CountPrefix(rest, m - 1);
      } else {
        assert forall i :: 0 <= i < |rest| ==> (rest[i] <==> i < 0) by {
          forall i | 0 <= i < |rest| ensures rest[i] <==> i < 0 {
            assert rest[i] == flags[i + 1];
          }
        }
        CountPrefix(rest, 0);
      }
    }
  }

  /** The played bars form a prefix: the fill grows from the left. */
  lemma PastIsPrefix(active: bool, progress: real, i: nat, j: nat)
    requires j <= i < Spectrum.Bars
    requires PastFlags(active, progress)[i]
    ensures PastFlags(active, progress)[j]
  {
  }

  /**
   * On the active card `floor(32 * progress) + 1` bars are drawn as played,
   * at most 32; bar 0 is already filled at progress 0. Every other card
   * shows none.
   */
  lemma PastCount(active: bool, progress: real)
    requires 0.0 <= progress
    ensures !active ==> CountTrue(PastFlags(active, progress)) == 0
    ensures active ==> CountTrue(PastFlags(active, progress)) == Min(Spectrum.Bars, (progress * Spectrum.Bars as real).Floor + 1)
  {
    var flags := PastFlags(active, progress);
    var x := progress * Spectrum.Bars as real;
    var m := if active then Min(Spectrum.Bars, x.Floor + 1) else 0;
    assert 0 <= m by { assert x.Floor >= 0; }
    forall i | 0 <= i < |flags| ensures flags[i] <==> i < m {
      if active {
        assert (i as real <= x) <==> i <= x.Floor;
      }
    }
    CountPrefix(flags, m);
  }

  function Min(a: int, b: int): int {
    if a <= b then a else b
  }

  /** Halfway through a track, 17 of the 32 bars are filled (bars 0 to 16). */
  lemma HalfwayFillsSeventeen()
    ensures CountTrue(PastFlags(true, 0.5)) == 17
  {
    PastCount(true, 0.5);
    assert (0.5 * Spectrum.Bars as real).Floor == 16;
  }

  /** A finished track fills all 32 bars. */
  lemma FinishedFillsAll(progress: real)
    requires 1.0 <= progress
    ensures CountTrue(PastFlags(true, progress)) == Spectrum.Bars
  {
    PastCount(true, progress);
  }

  /**
   * The drawn height of one bar: the live level, scaled to percent with a
   * floor of 15, while this card plays and the level is positive; the
   * track's stored waveform otherwise.
   */
  function BarHeight(base: real, active: bool, playing: bool, level: real): (h: real)
    ensures active && playing && level > 0.0 ==> 15.0 <= h && level * 100.0 <= h
    ensures active && playing && level > 0.0 ==> h == 15.0 || h == level * 100.0
    ensures !(active && playing && level > 0.0) ==> h == base
  {
    if active && playing && level > 0.0 then
      if level * 100.0 < 15.0 then 15.0 else level * 100.0
    else base
  }

  /** The heights of a card's 32 bars. */
  function BarHeights(p: Player, track: Track): (hs: seq<real>)
    requires |track.waveform| == Spectrum.Bars
    requires Spectrum.WellFormedFrame(p.analysis.frame)
    ensures |hs| == Spectrum.Bars
    ensures forall i :: 0 <= i < Spectrum.Bars ==>
      var active := p.activeTrack == Some(track.id);
      hs[i] == BarHeight(track.waveform[i], active, active && p.isPlaying, p.analysis.frame[i])
  {
    var active := p.activeTrack == Some(track.id);
    seq(Spectrum.Bars, i requires 0 <= i < Spectrum.Bars =>
      BarHeight(track.waveform[i], active, active && p.isPlaying, p.analysis.frame[i]))
  }

  /** A card that is not playing shows its stored waveform unchanged. */
  lemma IdleCardShowsWaveform(p: Player, track: Track)
    requires |track.waveform| == Spectrum.Bars
    requires Spectrum.WellFormedFrame(p.analysis.frame)
    requires p.activeTrack != Some(track.id) || !p.isPlaying
    ensures BarHeights(p, track) == track.waveform
  {
  }

  /** A playing card's live bars stay between 15% and 100% of the bar area. */
  lemma LiveBarsInRange(p: Player, track: Track, i: nat)
    requires |track.waveform| == Spectrum.Bars
    requires Spectrum.WellFormedFrame(p.analysis.frame)
    requires p.activeTrack == Some(track.id) && p.isPlaying
    requires i < Spectrum.Bars && p.analysis.frame[i] > 0.0
    ensures 15.0 <= BarHeights(p, track)[i] <= 100.0
  {
  }

  /** A drag that stays over the bars seeks exactly where a click there would. */
  lemma DragInsideMatchesClick(p: Player, trackId: int, clientX: real, rect: Rect)
    requires rect.width > 0.0 && p.isDragging
    requires rect.left <= clientX <= rect.left + rect.width
    ensures ProgressDrag(p, trackId, clientX, rect) == ProgressClick(p, trackId, clientX, rect)
  {
  }

  /** A click inside the bars seeks within the track. */
  lemma ClickInsideStaysInTrack(p: Player, trackId: int, clientX: real, rect: Rect)
    requires rect.width > 0.0 && CanSeek(p, trackId) && 0.0 <= p.duration
    requires rect.left <= clientX <= rect.left + rect.width
    ensures 0.0 <= ProgressClick(p, trackId, clientX, rect).currentTime <= p.duration
  {
    var f := (clientX - rect.left) / rect.width;
    assert 0.0 <= f <= 1.0;
    assert p.duration - f * p.duration == (1.0 - f) * p.duration;
    assert (1.0 - f) * p.duration >= 0.0;
  }

  /** A drag past either end of the bars seeks to the start or to the very end of the track. */
  lemma DragPastEnds(p: Player, trackId: int, clientX: real, rect: Rect)
    requires rect.width > 0.0 && p.isDragging && CanSeek(p, trackId)
    ensures clientX <= rect.left ==> ProgressDrag(p, trackId, clientX, rect).currentTime == 0.0
    ensures clientX >= rect.left + rect.width ==> ProgressDrag(p, trackId, clientX, rect).currentTime == p.duration
  {
    var x := Clamp(clientX - rect.left, 0.0, rect.width);
    assert ProgressDrag(p, trackId, clientX, rect).currentTime == x / rect.width * p.duration;
    if clientX <= rect.left {
      assert x == 0.0;
    }
    if clientX >= rect.left + rect.width {
      assert x / rect.width == 1.0;
    }
  }

  /** Seeking to the start or the end of the bars lands on 0 and on the duration. */
  lemma SeekEnds(p: Player, trackId: int, rect: Rect)
    requires rect.width > 0.0 && CanSeek(p, trackId)
    ensures ProgressClick(p, trackId, rect.left, rect).currentTime == 0.0
    ensures ProgressClick(p, trackId, rect.left + rect.width, rect).currentTime == p.duration
  {
  }
}

=== FILE: spectrum.dfy ===
/**
 * Frequency bucketing for the player's visualiser: the analyser's byte
 * spectrum is averaged into 32 bars, each scaled into [0, 1].
 */
module Spectrum {

  /** The number of bars drawn per track. */
  const Bars: nat := 32

  /** The analyser's FFT size; the spectrum has half as many bins (`frequencyBinCount`). */
  const FftSize: nat := 512
  const BinCount: nat := FftSize / 2

  /** One entry of `getByteFrequencyData`'s output. */
  type Byte = x: int | 0 <= x < 256

  /** A frame of bar levels: one per bar, each in [0, 1]. */
  predicate WellFormedFrame(frame: seq<real>) {
    |frame| == Bars && forall i :: 0 <= i < |frame| ==> 0.0 <= frame[i] <= 1.0
  }

  /** The silent frame `Array(32).fill(0)`. */
  function Zeros(): (frame: seq<real>)
    ensures WellFormedFrame(frame)
    ensures forall i :: 0 <= i < |frame| ==> frame[i] == 0.0
  {
    seq(Bars, _ => 0.0)
  }

  function Sum(s: seq<int>): int {
    if |s| == 0 then 0 else Sum(s[..|s| - 1]) + s[|s| - 1]
  }

  lemma {:induction false} SumBounds(s: seq<Byte>)
    ensures 0 <= Sum(s) <= 255 * |s|
  {
    if |s| > 0 {
      SumBounds(s[..|s| - 1]);
    }
  }

  /** `Math.floor(bufferLength / bars)`: the width of every bucket. */
  function Step(binCount: nat): nat {
    binCount / Bars
  }

  /** Every bucket lies inside the spectrum, since 32 buckets span at most `32 * step` bins. */
  lemma BucketInside(binCount: nat, i: nat)
    requires i < Bars
    ensures i * Step(binCount) + Step(binCount) <= Bars * Step(binCount) <= binCount
  {
    var step := Step(binCount);
    assert i * step + step == (i + 1) * step;
    assert (i + 1) * step <= Bars * step by {
      assert Bars * step - (i + 1) * step == (Bars - (i + 1)) * step;
    }
  }

  /** The average of bucket `i`, divided by 255. */
  function BucketLevel(bins: seq<Byte>, i: nat): (level: real)
    requires Bars <= |bins| && i < Bars
    ensures 0.0 <= level <= 1.0
  {
    var step := Step(|bins|);
    BucketInside(|bins|, i);
    var bucket := bins[i * step .. i * step + step];
    SumBounds(bucket);
    var average := Sum(bucket) as real / step as real;
    assert average <= 255.0 by {
      assert Sum(bucket) as real <= 255.0 * step as real;
    }
    average / 255.0
  }

  /** The frame computed from a spectrum of at least 32 bins. */
  function Frame(bins: seq<Byte>): (frame: seq<real>)
    requires Bars <= |bins|
    ensures WellFormedFrame(frame)
  {
    seq(Bars, i requires 0 <= i < Bars => BucketLevel(bins, i))
  }

  /**
   * The sampling step of `startFrequencyAnalysis`: for each of the 32 bars
   * sum `step` consecutive bins, average and scale.
   */
  method ComputeFrame(bins: seq<Byte>) returns (frequencies: seq<real>)
    requires Bars <= |bins|
    ensures WellFormedFrame(frequencies)
    ensures forall i :: 0 <= i < Bars ==> frequencies[i] == BucketLevel(bins, i)
  {
    var step := |bins| / Bars;
    frequencies := [];
    var i := 0;
    while i < Bars
      invariant 0 <= i <= Bars
      invariant |frequencies| == i
      invariant forall k :: 0 <= k < i ==> frequencies[k] == BucketLevel(bins, k)
    {
      BucketInside(|bins|, i);
      var start := i * step;
      var sum := SumBins(bins, start, start + step);
      var average := sum as real / step as real;
      assert average / 255.0 == BucketLevel(bins, i);
      frequencies := frequencies + [average / 255.0];
      i := i + 1;
    }
  }

  /** The inner loop: `sum += dataArray[j]` for `start <= j < end`. */
  method SumBins(bins: seq<Byte>, start: nat, end: nat) returns (sum: int)
    requires start <= end <= |bins|
    ensures sum == Sum(bins[start..end])
    ensures 0 <= sum <= 255 * (end - start)
  {
    sum := 0;
    var j := start;
    while j < end
      invariant start <= j <= end
      invariant sum == Sum(bins[start..j])
    {
      assert bins[start..j + 1][..j - start] == bins[start..j];
      sum := sum + bins[j];
      j := j + 1;
    }
    SumBounds(bins[start..end]);
  }

  /** The analyser the player builds: buckets of 8 bins that cover the whole spectrum, none left over. */
  lemma FullAnalyserUsesAllBins()
    ensures Step(BinCount) == 8
    ensures Bars * Step(BinCount) == BinCount
    ensures forall i :: 0 <= i < Bars ==> i * Step(BinCount) + Step(BinCount) <= BinCount
  {
    forall i | 0 <= i < Bars
      ensures i * Step(BinCount) + Step(BinCount) <= BinCount
    {
      BucketInside(BinCount, i);
    }
  }

  /** The bins past the last full bucket never reach the frame. */
  lemma TrailingBinsIgnored(a: seq<Byte>, b: seq<Byte>)
    requires Bars <= |a| && |a| == |b|
    requires a[..Bars * Step(|a|)] == b[..Bars * Step(|a|)]
    ensures Frame(a) == Frame(b)
  {
    var step := Step(|a|);
    forall i | 0 <= i < Bars
      ensures BucketLevel(a, i) == BucketLevel(b, i)
    {
      BucketInside(|a|, i);
      var lo, hi := i * step, i * step + step;
      SliceOfPrefix(a, Bars * step, lo, hi);
      SliceOfPrefix(b, Bars * step, lo, hi);
    }
  }

  lemma SliceOfPrefix(s: seq<Byte>, p: nat, lo: nat, hi: nat)
    requires lo <= hi <= p <= |s|
    ensures s[lo..hi] == s[..p][lo..hi]
  {
  }

  /** A silent spectrum gives the silent frame, and a saturated one gives all ones. */
  lemma ConstantSpectrum(bins: seq<Byte>, v: Byte)
    requires Bars <= |bins| && forall j :: 0 <= j < |bins| ==> bins[j] == v
    ensures forall i :: 0 <= i < Bars ==> Frame(bins)[i] == v as real / 255.0
  {
    var step := Step(|bins|);
    forall i | 0 <= i < Bars
      ensures BucketLevel(bins, i) == v as real / 255.0
    {
      BucketInside(|bins|, i);
      var bucket := bins[i * step .. i * step + step];
      SumConstant(bucket, v);
      assert (step * v) as real / step as real == v as real;
    }
  }

  lemma {:induction false} SumConstant(s: seq<Byte>, v: Byte)
    requires forall j :: 0 <= j < |s| ==> s[j] == v
    ensures Sum(s) == |s| * v
  {
    if |s| > 0 {
      SumConstant(s[..|s| - 1], v);
    }
  }
}

=== FILE: thumbnail_strip.dfy ===
/**
 * The endlessly scrolling thumbnail strip: the project list laid out three
 * times, with the scroll position jumped back to the middle copy whenever
 * it reaches either end, and mouse dragging that scrolls twice as far as
 * the pointer moves.
 */
module ThumbnailStrip {
  import opened Wrappers
  import JsArith

  /** `[...projects, ...projects, ...projects]`. */
  function Tripled<T>(projects: seq<T>): (strip: seq<T>)
    ensures |strip| == 3 * |projects|
    ensures forall k :: 0 <= k < |strip| ==> strip[k] == projects[k % |projects|]
  {
    var strip := projects + projects + projects;
    assert forall k :: 0 <= k < |strip| ==> strip[k] == projects[k % |projects|] by {
      forall k | 0 <= k < |strip|
        ensures strip[k] == projects[k % |projects|]
      {
        var n := |projects|;
        if k < n {
          JsArith.ModUnique(k, n, 0, k);
        } else if k < 2 * n {
          JsArith.ModUnique(k, n, 1, k - n);
        } else {
          JsArith.ModUnique(k, n, 2, k - 2 * n);
        }
      }
    }
    strip
  }

  /** `Array.prototype.indexOf`: the first position holding `x`, or -1. */
  function IndexOf<T(==)>(xs: seq<T>, x: T): (r: int)
    ensures -1 <= r < |xs|
    ensures r == -1 <==> x !in xs
    ensures r >= 0 ==> xs[r] == x && forall j :: 0 <= j < r ==> xs[j] != x
  {
    if |xs| == 0 then -1
    else if xs[0] == x then 0
    else
      var k := IndexOf(xs[1..], x);
      if k < 0 then -1 else k + 1
  }

  /** The catalogue's entries are distinct objects, so `indexOf` tells them apart. */
  predicate Distinct<T(==)>(xs: seq<T>) {
    forall i, j :: 0 <= i < j < |xs| ==> xs[i] != xs[j]
  }

  /** Position `k` of the strip opens project `k mod n`. */
  lemma ThumbnailMapsBack<T>(projects: seq<T>, k: nat)
    requires Distinct(projects) && k < 3 * |projects|
    ensures IndexOf(projects, Tripled(projects)[k]) == k % |projects|
  {
    assert projects[k % |projects|] == Tripled(projects)[k];
  }

  /** The strip's scrolling state; offsets are pixels. */
  datatype Strip = Strip(
    isDragging: bool,
    startX: real,           // pointer position, relative to the strip, when the drag began
    startScroll: real,      // scroll offset when the drag began
    scrollLeft: real,       // the container's scroll offset
    scrollWidth: real)      // the width of the whole tripled strip

  /** On mount the strip scrolls to the start of the middle copy. */
  function Mount(scrollWidth: real): (s: Strip)
    requires scrollWidth >= 0.0
    ensures !s.isDragging && s.scrollLeft * 3.0 == s.scrollWidth
    ensures s.scrollWidth == scrollWidth && s.scrollLeft == scrollWidth / 3.0
  {
    Strip(false, 0.0, 0.0, scrollWidth / 3.0, scrollWidth)
  }

  /** The width of one copy of the project list. */
  function CopyWidth(s: Strip): (w: real)
    ensures 3.0 * w == s.scrollWidth
  {
    s.scrollWidth / 3.0
  }

  /**
   * The scroll handler: reaching the start of the third copy, or the very
   * start of the first, jumps to the start of the middle copy.
   */
  function OnScroll(s: Strip): (r: Strip)
    ensures r.(scrollLeft := s.scrollLeft) == s
    ensures r.scrollLeft == s.scrollLeft <==> (0.0 < s.scrollLeft < 2.0 * CopyWidth(s) || s.scrollLeft == CopyWidth(s))
    ensures s.scrollWidth > 0.0 ==> 0.0 < r.scrollLeft < 2.0 * CopyWidth(s)
    ensures s.scrollLeft >= 2.0 * CopyWidth(s) || s.scrollLeft <= 0.0 ==> r.scrollLeft == CopyWidth(s)
  {
    var w := CopyWidth(s);
    if s.scrollLeft >= w * 2.0 then s.(scrollLeft := w)
    else if s.scrollLeft <= 0.0 then s.(scrollLeft := w)
    else s
  }

  /** A second scroll event right after a jump changes nothing. */
  lemma OnScrollIdempotent(s: Strip)
    requires s.scrollWidth >= 0.0
    ensures OnScroll(OnScroll(s)) == OnScroll(s)
  {
  }

  /** Pressing the mouse records where the drag starts. */
  function MouseDown(s: Strip, pageX: real, offsetLeft: real): (r: Strip)
    ensures r.isDragging && r.scrollLeft == s.scrollLeft && r.startScroll == s.scrollLeft
    ensures r.startX == pageX - offsetLeft
    ensures r.(isDragging := s.isDragging, startX := s.startX, startScroll := s.startScroll) == s
  {
    s.(isDragging := true, startX := pageX - offsetLeft, startScroll := s.scrollLeft)
  }

  /** Moving the mouse while dragging scrolls by twice the pointer's travel, against its direction. */
  function MouseMove(s: Strip, pageX: real, offsetLeft: real): (r: Strip)
    ensures !s.isDragging ==> r == s
    ensures s.isDragging ==> r.(scrollLeft := s.scrollLeft) == s
    ensures s.isDragging ==> r.startScroll - r.scrollLeft == 2.0 * ((pageX - offsetLeft) - s.startX)
  {
    if !s.isDragging then s
    else s.(scrollLeft := s.startScroll - ((pageX - offsetLeft) - s.startX) * 2.0)
  }

  /** Releasing the mouse, or leaving the strip, ends the drag. */
  function MouseUp(s: Strip): (r: Strip)
    ensures !r.isDragging && r.(isDragging := s.isDragging) == s
  {
    s.(isDragging := false)
  }

  /** A click on position `k` opens its project, unless a drag is in progress. */
  function Click<T(==)>(s: Strip, projects: seq<T>, k: nat): (chosen: Option<int>)
    requires k < 3 * |projects|
    ensures s.isDragging ==> chosen.None?
    ensures !s.isDragging && Distinct(projects) ==> chosen == Some(k % |projects|)
  {
    if s.isDragging then None
    else
      var projectIndex := IndexOf(projects, Tripled(projects)[k]);
      assert Distinct(projects) ==> projectIndex == k % |projects| by {
        if Distinct(projects) {
          ThumbnailMapsBack(projects, k);
        }
      }
      Some(projectIndex)
  }

  /** A drag back to where it started restores the scroll offset it started from. */
  lemma DragReturnRestores(s: Strip, pageX: real, offsetLeft: real)
    requires !s.isDragging
    ensures MouseMove(MouseDown(s, pageX, offsetLeft), pageX, offsetLeft).scrollLeft == s.scrollLeft
  {
  }
}

=== FILE: typewriter.dfy ===
/**
 * The typewriter reveal: after the start delay an interval reveals one
 * more character of the text per tick, then marks the reveal complete
 * and stops; a caret is drawn until then.
 */
module Typewriter {

  /** One UTF-16 code unit: what JavaScript's `length` and `slice` count. */
  type CodeUnit = x: int | 0 <= x < 0x1_0000

  /** A JavaScript string: its UTF-16 code units. */
  type Text = seq<CodeUnit>

  /** Whether a character lies outside the Basic Multilingual Plane and so takes a surrogate pair. */
  predicate IsAstral(c: char) {
    c as int >= 0x1_0000
  }

  /** The UTF-16 encoding of one character: itself, or a high and a low surrogate. */
  function EncodeChar(c: char): (units: Text)
    ensures |units| == (if IsAstral(c) then 2 else 1)
    ensures !IsAstral(c) ==> units[0] == c as int
    ensures IsAstral(c) ==> 0xD800 <= units[0] < 0xDC00 <= units[1] < 0xE000
    ensures IsAstral(c) ==> 0x1_0000 + (units[0] as int - 0xD800) * 0x400 + (units[1] as int - 0xDC00) == c as int
  {
    var v := c as int;
    if v < 0x1_0000 then [v]
    else
      var w := v - 0x1_0000;
      [0xD800 + w / 0x400, 0xDC00 + w % 0x400]
  }

  /** How many characters of `s` take a surrogate pair. */
  function AstralCount(s: string): nat {
    if |s| == 0 then 0 else AstralCount(s[..|s| - 1]) + (if IsAstral(s[|s| - 1]) then 1 else 0)
  }

  /** The UTF-16 encoding of a string: one code unit per character, two for each astral one. */
  function Utf16(s: string): (units: Text)
    ensures |units| == |s| + AstralCount(s)
    ensures |units| == |s| <==> AstralCount(s) == 0
  {
    if |s| == 0 then [] else Utf16(s[..|s| - 1]) + EncodeChar(s[|s| - 1])
  }

  /** `index` is the interval's `currentIndex`; `running` says whether the interval is set. */
  datatype Reveal = Reveal(displayed: Text, isComplete: bool, index: nat, running: bool)

  /** Nothing shown, not complete, no interval yet. */
  function Init(): (r: Reveal)
    ensures r.displayed == [] && !r.isComplete && !r.running
  {
    Reveal([], false, 0, false)
  }

  /** The caret pulses after the revealed text until the reveal completes. */
  predicate CaretVisible(r: Reveal) {
    !r.isComplete
  }

  lemma InitShowsCaret()
    ensures CaretVisible(Init()) && Init().displayed == []
  {
  }

  /** The start delay elapses: a fresh index and a running interval. */
  function Start(r: Reveal): (s: Reveal)
    ensures s.running && s.index == 0
    ensures s.displayed == r.displayed && s.isComplete == r.isComplete
  {
    r.(index := 0, running := true)
  }

  /** What holds while revealing `text`: the shown text is the first `index` characters. */
  predicate Inv(text: Text, r: Reveal) {
    && r.index <= |text|
    && r.displayed == text[..r.index]
    && (r.isComplete ==> r.displayed == text && !r.running)
  }

  /** One interval tick: show one more character, or, with all shown, complete and clear the interval. */
  function Tick(text: Text, r: Reveal): (t: Reveal)
    ensures !r.running ==> t == r
    ensures Inv(text, r) ==> Inv(text, t)
    ensures Inv(text, r) && r.running && |r.displayed| < |text| ==>
      t.running && !t.isComplete && |t.displayed| == |r.displayed| + 1 && r.displayed <= t.displayed
    ensures Inv(text, r) && r.running && |r.displayed| == |text| ==>
      t.isComplete && !t.running && t.displayed == text
  {
    if !r.running then r
    else if r.index < |text| then r.(displayed := text[..r.index + 1], index := r.index + 1)
    else r.(isComplete := true, running := false)
  }

  /** `k` ticks of the interval. */
  function Ticks(text: Text, r: Reveal, k: nat): Reveal
    decreases k
  {
    if k == 0 then r else Ticks(text, Tick(text, r), k - 1)
  }

  /** Started from mount, the reveal shows the first `k` characters after `k <= |text|` ticks. */
  lemma {:induction false} TicksReveal(text: Text, k: nat)
    requires k <= |text|
    ensures var r := Ticks(text, Start(Init()), k);
      r.displayed == text[..k] && !r.isComplete && r.running && CaretVisible(r)
  {
    TicksFrom(text, Start(Init()), k);
  }

  lemma {:induction false} TicksFrom(text: Text, r: Reveal, k: nat)
    requires Inv(text, r) && r.running && !r.isComplete && r.index + k <= |text|
    ensures var t := Ticks(text, r, k);
      Inv(text, t) && t.running && !t.isComplete && t.index == r.index + k
    decreases k
  {
    if k > 0 {
      TicksFrom(text, Tick(text, r), k - 1);
    }
  }

  /** Exactly `|text| + 1` ticks complete the reveal with the whole text shown; an empty text completes on the first tick. */
  lemma CompletesAfterLengthPlusOne(text: Text)
    ensures var r := Ticks(text, Start(Init()), |text| + 1);
      r.isComplete && r.displayed == text && !CaretVisible(r)
    ensures |text| > 0 ==> !Ticks(text, Start(Init()), |text|).isComplete
  {
    TicksFrom(text, Start(Init()), |text|);
    TicksShift(text, Start(Init()), |text|);
  }

  lemma {:induction false} TicksShift(text: Text, r: Reveal, k: nat)
    ensures Ticks(text, r, k + 1) == Tick(text, Ticks(text, r, k))
    decreases k
  {
    if k > 0 {
      TicksShift(text, Tick(text, r), k - 1);
    }
  }

  /** Once complete, further ticks change nothing: the interval is cleared. */
  lemma {:induction false} CompleteIsFinal(text: Text, r: Reveal, k: nat)
    requires Inv(text, r) && r.isComplete
    ensures Ticks(text, r, k) == r
    decreases k
  {
    if k > 0 {
      CompleteIsFinal(text, Tick(text, r), k - 1);
    }
  }

  /** The shown text only grows, each state's text a prefix of the next. */
  lemma {:induction false} DisplayedGrows(text: Text, r: Reveal, k: nat)
    requires Inv(text, r)
    ensures Inv(text, Ticks(text, r, k))
    ensures r.displayed <= Ticks(text, r, k).displayed
    decreases k
  {
    if k > 0 {
      var t := Tick(text, r);
      assert r.displayed <= t.displayed;
      DisplayedGrows(text, t, k - 1);
    }
  }

  /** Ticks compose: `a + b` ticks are `a` ticks followed by `b` more. */
  lemma {:induction false} TicksAdd(text: Text, r: Reveal, a: nat, b: nat)
    ensures Ticks(text, r, a + b) == Ticks(text, Ticks(text, r, a), b)
    decreases a
  {
    if a > 0 {
      TicksAdd(text, Tick(text, r), a - 1, b);
    }
  }

  /** Started from mount, the caret is drawn after `k` ticks exactly when `k` is at most the text's length. */
  lemma CaretUntilComplete(text: Text, k: nat)
    ensures CaretVisible(Ticks(text, Start(Init()), k)) <==> k <= |text|
  {
    if k <= |text| {
      TicksReveal(text, k);
    } else {
      var n := |text| + 1;
      CompletesAfterLengthPlusOne(text);
      DisplayedGrows(text, Start(Init()), n);
      TicksAdd(text, Start(Init()), n, k - n);
      CompleteIsFinal(text, Ticks(text, Start(Init()), n), k - n);
    }
  }

  /**
   * A lone emoji is two code units: the first tick shows only its high
   * surrogate, and the reveal completes on the third tick, not the second.
   */
  lemma AstralCharacterTakesTwoTicks()
    ensures var text := Utf16("\U{1F600}");
      && |text| == 2
      && Ticks(text, Start(Init()), 1).displayed == [0xD83D]
      && !Ticks(text, Start(Init()), 2).isComplete
      && Ticks(text, Start(Init()), 3).isComplete
  {
    var text := Utf16("\U{1F600}");
    assert "\U{1F600}"[..0] == [];
    assert text == [0xD83D, 0xDE00];
    TicksReveal(text, 1);
    TicksReveal(text, 2);
    CompletesAfterLengthPlusOne(text);
  }

  /**
   * For a string of characters the reveal takes one tick per code unit plus
   * one: a tick for every character and an extra one for each astral one.
   */
  lemma {:induction false} StringCompletes(s: string)
    ensures Ticks(Utf16(s), Start(Init()), |s| + AstralCount(s) + 1).isComplete
    ensures |s| > 0 ==> !Ticks(Utf16(s), Start(Init()), |s| + AstralCount(s)).isComplete
  {
    var text := Utf16(s);
    var n := |s| + AstralCount(s);
    assert |text| == n;
    CompletesAfterLengthPlusOne(text);
    assert Ticks(text, Start(Init()), n + 1) == Ticks(text, Start(Init()), |text| + 1);
  }
}

=== FILE: wrappers.dfy ===
/** The optional value used wherever the source has `T | null`. */
module Wrappers {

  datatype Option<+T> = None | Some(value: T)
}
